=== FILE: README.md ===
# Odyssey trip planner — the pure core of its web client

Odyssey is a browser client for planning trips: it searches places, submits a
start location and stops to a trip service, shows the computed itinerary on a
map, lists events in a city and keeps a photo-and-notes "memories" journal.
Nearly all of it is rendering and forwarding requests. This project models the
pure logic buried inside its React components, as total functions over
immutable records and sequences. The logic covered is:

- `formatDuration` (memories page): minutes rendered as hours and minutes with
  singular/plural wording. A reader for that wording states what the rendering
  means: a phrase reads as n minutes exactly when it is the rendering of n.
- Saved memories: the upsert of a memory by trip id into the locally kept list,
  photo upload, removal, per-itinerary filtering and the persisted metadata,
  deletion of a fetched memory by position, and the itinerary's map places.
- Trip page: the text-search precondition and result normalisation, adding and
  removing stops, local validation and the shape of the trip-initialisation
  request, and the list of places handed to the map.
- Map component: which places get markers, the teardown-then-add order of
  marker effects, the single camera flight, and the gating and coordinate
  selection of the route line.
- Events page: which events are kept, listed and placed on the map, the
  booking-link priority, and the "add to itinerary" classification.
- Trip planner panel: suggestions, recommendations and what selecting a
  suggestion hands on.
- The development proxy's two path rewrites.

JavaScript values that may be missing are `Option`s. Truthiness is explicit:
`JsText.Truthy` covers strings, and `Places.Number.Truthy` covers numbers,
which are falsy when zero or NaN. A coordinate is an opaque `Number`
(`Finite(v)` or `NaN`), because only NaN-ness and zero-ness ever matter.
Network replies are parameters: `None` means the request or its decoding
threw. Clock values, random values and the user's position are parameters too.

Modules, one per file: `Wrappers`, `Seqs` (JavaScript's `filter`,
positional `filter`, `slice(0, n)`, `findIndex`), `JsText` (`trim`, `||`
defaulting, decimal rendering), `Duration`, `Places` (shared records and the
search exchange), `Memories`, `TripPage`, `TripMap`, `Events`, `TripPlanner`,
`Proxy`.

## Behaviour notes

- Searches have no stale-response suppression. The trip page's queries are
  only debounced by 180 ms.
- The map draws one line through the raw coordinates. There is no multi-leg
  routing, no straight-line fallback and no per-leg colour.
- Every marker looks the same; the start gets no distinct marker.
- The camera flies to the last place of the list, and only when that place is
  drawable. It does not fly to the last marker added.
- A place with a NaN coordinate still feeds the route line but gets no marker.
- The old route line is removed only inside the map's load handler
  (TripMap.jsx:98-101). When fewer than two places, or fewer than two
  coordinate pairs, remain, the effect returns early (TripMap.jsx:87, 93) and
  the previous line stays on the map. `TripMap.PlanRoute` returns `NoRoute`
  there: nothing new is drawn, which does not mean the old line goes.
- The search precondition counts UTF-16 code units, as JavaScript's `length`
  does: a letter followed by one emoji is long enough to be searched.

## Model

| member | source | states |
|---|---|---|
| Duration.FormatDuration | frontend/src/components/MemoriesPage.jsx:10-13 | a missing, non-number, NaN, zero or negative input renders exactly "0 minutes" |
| Duration.SplitMinutes | frontend/src/components/MemoriesPage.jsx:14-15 | for a positive whole number of minutes, hours * 60 + mins is the input and mins < 60 |
| Duration.FormatDurationReadsBack | frontend/src/components/MemoriesPage.jsx:10-23 | every rendering reads back as the number of minutes it renders (the input when positive, else 0). The reader accepts only "M minute(s)" with M below 60, "H hour(s)" with H at least 1, or "H hour(s) M minute(s)" with M from 1 to 59, counts without leading zeros, and the singular word exactly for a count of one |
| Duration.ParseDurationInverse | frontend/src/components/MemoriesPage.jsx:14-23 | any phrase the reader accepts as n minutes is exactly the rendering of n, so the reader describes nothing but renderings |
| Duration.DurationTextCanonical | frontend/src/components/MemoriesPage.jsx:10-23 | for every n >= 0, a phrase reads as n minutes if and only if it is the rendering of n |
| Duration.FormatDurationInjective | frontend/src/components/MemoriesPage.jsx:14-23 | two different positive durations never render as the same text |
| JsText.Trim | frontend/src/components/TripPage.jsx:40 | `trim` yields the infix between the leading and trailing white space, which is all that is cut off. The result neither starts nor ends with white space, and it is empty exactly for an all-white-space string |
| Seqs.FirstIndex | frontend/src/components/MemoriesPage.jsx:236 | `findIndex` returns the first position whose element matches, or -1 exactly when none matches |
| Seqs.RemoveAt | frontend/src/components/TripPage.jsx:99 | filtering by position deletes exactly position idx and shifts the later elements down by one; an out-of-range idx changes nothing |
| Places.SearchText | frontend/src/components/TripPage.jsx:39-69 | a request is sent exactly when the trimmed query is at least 3 UTF-16 code units long and a position is known. The query is sent untrimmed, with that bias position. Skipped or failed searches show no results |
| Places.NormalizeResults | frontend/src/components/TripPage.jsx:56-62 | absent `ResultItems` gives no candidates. Otherwise there is one candidate per item, in order, carrying its title, place id and position, with the address label defaulting to "" |
| Places.AstralQuerySearched | frontend/src/components/TripPage.jsx:40 | "a" followed by one emoji is two characters but three code units long, and is searched |
| Places.ShouldSearchIgnoresPadding | frontend/src/components/TripPage.jsx:40 | leading white space never changes whether a query is searched |
| TripPage.Search | frontend/src/components/TripPage.jsx:39-54 | the trip page's search asks for at most 6 results and follows the shared search precondition |
| TripPage.AddStop | frontend/src/components/TripPage.jsx:94-98 | the place is appended, the earlier stops are unchanged, and the stop query and suggestions are cleared |
| TripPage.RemoveStop | frontend/src/components/TripPage.jsx:99 | exactly position idx is deleted and the others keep their relative order; an out-of-range idx leaves the state unchanged |
| TripPage.AddThenRemoveStop | frontend/src/components/TripPage.jsx:94-99 | adding a stop and then removing position \|places\| restores the stop list |
| TripPage.StopRefsFollowEdits | frontend/src/components/TripPage.jsx:94-118 | the request's stop list follows the picker: adding a stop appends its `[title, placeId]`, and removing position idx removes the pair at idx |
| TripPage.AddedStopIsRequested | frontend/src/components/TripPage.jsx:94-118 | with a start location, the request after adding a stop is sent and lists the earlier stops in order with the new one last |
| TripPage.InitializeTrip | frontend/src/components/TripPage.jsx:101-118 | the trip is refused with the validation message exactly when the start location is empty or there are no stops. Otherwise `stops` is the `[title, placeId]` pairs in order, and start coordinates are included exactly when known |
| TripPage.MapPlaces | frontend/src/components/TripPage.jsx:134-151 | with an itinerary the list is the optional start entry (address "Start", the only one with isStart), then each stop at `[lon, lat]`. Its length is \|itinerary\| + (1 if coordinates are known, else 0). Without an itinerary the list is exactly the chosen places |
| TripPage.StartMarkerFirst | frontend/src/components/TripPage.jsx:134-151 | with an itinerary and two non-NaN start coordinates, the map's first marker is the start, with "Start" as its popup address |
| Memories.UpsertMemory | frontend/src/components/MemoriesPage.jsx:233-241 | the first memory with the same tripId is replaced and the length is unchanged; without one the memory is appended. All other entries are unchanged |
| Memories.UpsertThenFind | frontend/src/components/MemoriesPage.jsx:236-241 | after a save, the trip's first entry is the saved memory |
| Memories.UpsertIdempotent | frontend/src/components/MemoriesPage.jsx:236-241 | saving the same memory twice equals saving it once |
| Memories.UpsertKeepsTripsDistinct | frontend/src/components/MemoriesPage.jsx:236-241 | if no two kept memories share a trip id before a save, none do after it |
| Memories.SaveMemory | frontend/src/components/MemoriesPage.jsx:169-244 | nothing is saved without a selected itinerary or an access token. Once the server has answered, the kept list is the upsert of the trip's memory. If the request throws, the list is not updated |
| Memories.MemoryFor | frontend/src/components/MemoriesPage.jsx:225-231 | the kept memory carries the trip id, itinerary, notes and the number of that trip's photos |
| Memories.MemoryRequestFor | frontend/src/components/MemoriesPage.jsx:188-203 | the request's images are the data of the trip's photos, one per photo in list order, and the notes or "Amazing trip!" when the notes are empty |
| Memories.UploadPhoto | frontend/src/components/MemoriesPage.jsx:104-124 | the upload is refused with "Please select an itinerary first" exactly when no itinerary is selected. With a selection and no file nothing changes. Otherwise exactly one photo is appended after the unchanged list: the given id, the file's data, the selected trip, upload time and rotation, and a delay counting the trip's earlier photos |
| Memories.UploadAppendsToTrip | frontend/src/components/MemoriesPage.jsx:115-124 | after an upload the trip shows its earlier photos followed by the new one, whose delay is its position among them |
| Memories.RemovePhoto | frontend/src/components/MemoriesPage.jsx:145-147 | no remaining photo has the id, and every photo with another id remains |
| Memories.RemovePhotoKeepsOrder | frontend/src/components/MemoriesPage.jsx:146 | removal splits over concatenation and keeps a single photo exactly when its id differs, so order is kept |
| Memories.RemovePhotoAbsentOrRepeated | frontend/src/components/MemoriesPage.jsx:146 | removing an id no photo has changes nothing, and removing twice equals removing once |
| Memories.UploadThenRemove | frontend/src/components/MemoriesPage.jsx:115-146 | uploading a photo with a fresh id and then removing that id restores the photo list |
| Memories.PhotoMetadata | frontend/src/components/MemoriesPage.jsx:150-156 | the metadata has the same length and order as the photos, with the same id, itinerary, upload time, rotation and delay |
| Memories.PhotosOf | frontend/src/components/MemoriesPage.jsx:191 | exactly the photos of the trip are kept |
| Memories.PhotosOfKeepsOrder | frontend/src/components/MemoriesPage.jsx:191 | the filter splits over concatenation and keeps a single photo exactly when it belongs to the trip, so the trip's photos keep their order |
| Memories.MetadataAfterRemove | frontend/src/components/MemoriesPage.jsx:145-156 | the metadata stored after a removal is the old metadata without the entries of the removed id |
| Memories.CurrentPhotos | frontend/src/components/MemoriesPage.jsx:264-267 | there are no current photos without a selection; otherwise they are the selected trip's photos |
| Memories.DeleteFetchedMemory | frontend/src/components/MemoriesPage.jsx:594 | deleting at idx removes exactly that position; any other idx changes nothing |
| Memories.DurationLabel | frontend/src/components/MemoriesPage.jsx:343-346 | the labelled duration line appears exactly when a selected itinerary has a truthy duration, with that duration's `formatDuration` text. A duration of 0 or NaN is printed bare as "0" or "NaN", because `&&` yields the number itself; any other falsy value shows nothing |
| Memories.DurationLabelReadsBack | frontend/src/components/MemoriesPage.jsx:343-346 | a shown duration line reads back as the trip's minutes when positive, and as zero for any other truthy value; a zero-minute trip gets no labelled line |
| Memories.MapPlaces | frontend/src/components/MemoriesPage.jsx:269-277 | there is one place per itinerary stop, in order, at `[lon, lat]`, with the spot name as title, the reason as address, and eventIndex = position + 1. No itinerary gives no places |
| Memories.StopsAllMarked | frontend/src/components/MemoriesPage.jsx:269-277 | when every stop's latitude and longitude are numbers, the map shows one marker per stop, in order, at `[lon, lat]`, titled by the spot name with the reason as popup address |
| TripMap.UpdateMarkers | frontend/src/components/TripMap.jsx:53-82 | before the map exists nothing happens. Otherwise the update starts by removing every old marker in order, and the kept markers are those of the drawable places |
| TripMap.MarkerUpdateEffects | frontend/src/components/TripMap.jsx:57-81 | all old markers are removed before any marker is added, and nothing is removed afterwards. The markers added are exactly the kept ones. The camera flies once, to the last place, exactly when that place is drawable; otherwise it never flies |
| TripMap.MarkerCount | frontend/src/components/TripMap.jsx:61-75 | there are as many markers as drawable places (two coordinates, neither NaN), each at such a place |
| TripMap.AllDrawableAllMarked | frontend/src/components/TripMap.jsx:61-75 | when every place is drawable, the markers are exactly one per place, in order |
| TripMap.PlanRoute | frontend/src/components/TripMap.jsx:84-93 | a route is drawn exactly when the map exists, there are at least 2 places and at least 2 length-two coordinate arrays survive. It goes through those arrays in order |
| TripMap.MarkersWithinRoute | frontend/src/components/TripMap.jsx:61-91 | every drawable place also feeds the route, so there are never more markers than route coordinates |
| TripMap.NaNPlaceRoutedButUnmarked | frontend/src/components/TripMap.jsx:62-91 | a place with a NaN coordinate feeds the route but gets no marker, because the route has no NaN check |
| Events.FetchedEvents | frontend/src/components/EventsPage.jsx:23-29 | the events are `events_results` when it is non-empty, and none otherwise |
| Events.ListedEvents | frontend/src/components/EventsPage.jsx:105 | the list shows the first min(10, n) events |
| Events.ListedFromReply | frontend/src/components/EventsPage.jsx:23-29 | the page lists the leading min(10, n) events of the reply, and none when the reply or its `events_results` is missing |
| Events.MapPlaces | frontend/src/components/EventsPage.jsx:71-80 | the map places are the events with truthy latitude and longitude, at most 10, in order, numbered from 0 |
| Events.EventPlace | frontend/src/components/EventsPage.jsx:74-79 | an event place sits at `[longitude, latitude]`, is titled "Event" when the title is missing or empty, and is flagged as an event with its index |
| Events.PlaceAddress | frontend/src/components/EventsPage.jsx:77 | an array address gives its first line (undefined when the array is empty); a string gives itself; a missing address gives "" |
| Events.EventPlacesAllMarked | frontend/src/components/EventsPage.jsx:71-80 | every event place gets a map marker |
| Events.MapPlacesSkipUnlocated | frontend/src/components/EventsPage.jsx:71-80 | an event without coordinates, at any position of the list, never changes the map places |
| Events.BookTickets | frontend/src/components/EventsPage.jsx:60-68 | the ticket link comes first, then the event link. There is no booking link exactly when neither is truthy |
| Events.ClassifyForItinerary | frontend/src/components/EventsPage.jsx:43-57 | the event is "ready" exactly when both coordinates are truthy. Otherwise it is "add manually" exactly when the address is truthy, else "no location". The title defaults to "Untitled Event" |
| Events.ListedEventOnMap | frontend/src/components/EventsPage.jsx:43-80 | "Add to Itinerary" and the map use the same location test. A listed event reported ready is the map place numbered by the count of located events before it, at the coordinates the report names. A listed event not reported ready leaves the map places as if it were absent. Nothing is added: the page only reports the classification |
| Events.TicketLinkTakesPriority | frontend/src/components/EventsPage.jsx:60-68 | while the ticket link is truthy, the event link does not affect the booking |
| TripPlanner.FetchSuggestions | frontend/src/components/TripPlanner.jsx:30-64 | the planner's search follows the shared precondition, asks for at most 5 results and normalises them like the trip page |
| TripPlanner.Recommendations | frontend/src/components/TripPlanner.jsx:67-93 | recommendations keep title, address (default "") and place id, in order. Absent `ResultItems` gives none; a failed request or unknown location keeps the current list |
| TripPlanner.RecommendationsAreCandidates | frontend/src/components/TripPlanner.jsx:67-93 | the recommendations are the search candidates of the same reply without positions: same count, titles, addresses and place ids |
| TripPlanner.RecommendationRequest | frontend/src/components/TripPlanner.jsx:68-78 | recommendations are requested exactly when the location is known, for "tourist attractions", with at most 6 results |
| TripPlanner.HandleSelect | frontend/src/components/TripPlanner.jsx:95-104 | the query and suggestions are cleared, and the forwarded place has exactly the title, coordinates, address and place id |
| TripPlanner.SelectedSuggestionUnchanged | frontend/src/components/TripPlanner.jsx:49-104 | a suggestion is forwarded unchanged, since it carries exactly the forwarded fields |
| Proxy.RewriteApi | frontend/vite.config.js:12 | a path starting with "/api" loses exactly that prefix; any other path is unchanged |
| Proxy.RewritePlaces | frontend/vite.config.js:17 | a path starting with "/places" loses exactly that prefix; any other path is unchanged |
| Proxy.StripLeadingRoundTrip | frontend/vite.config.js:12-17 | stripping is the inverse of prefixing in both directions |
| Proxy.RewriteApiOnce | frontend/vite.config.js:12 | only the leading occurrence goes: "/api/api/x" becomes "/api/x", so the rewrite is not idempotent |
| Proxy.NoSegmentBoundary | frontend/vite.config.js:12-17 | there is no segment-boundary check: "/apix" becomes "x" and "/placesfoo" becomes "foo" |

## Left out

- HTTP requests, JSON decoding, status handling and bearer tokens. Only the
  request bodies and the shaping of decoded replies are modelled; a reply is a
  parameter.
- localStorage, sessionStorage, FileReader, `alert`/`confirm` and console
  logging. These are side effects. The e-mail fallback "123@test.com" is taken
  as a given e-mail.
- `Date.now()`, `new Date().toISOString()` and the `toISO` helper
  (TripPage.jsx:110). These are clock dependent; the ISO times, photo id and
  upload time are parameters.
- Geolocation and the Cupertino default position. This is device I/O; the
  position is an `Option` parameter.
- The map library: map construction, the user-location marker, `flyTo`
  zoom and speed, the route layer's paint, bounds and `fitBounds` padding.
  Its effects are abstracted to the chosen markers, flight and route
  coordinates.
- The route is drawn from a `map.once("load")` handler. Whether that event
  still fires for an already-loaded map is the library's behaviour and is not
  modelled; `PlanRoute` states what the handler would draw.
- The 180 ms debounce of the trip page's searches. This is timing behaviour.
- Float arithmetic: non-integer minutes in `formatDuration`, the random photo
  rotation (a parameter) and the `toFixed` label of the current-location
  start (TripPage.jsx:81-92). The photo delay, the double `count * 0.1`, is
  kept as the count it is computed from.
- `handleRemove` of the trip planner only forwards the index to its parent's
  `onRemovePlace`. That parent is not part of this model.
- `fetchMemories` (MemoriesPage.jsx:51-102) and `handleSaveNotes`. These are
  network and storage glue. The only shaping, `data.memories || (Array.isArray(data) ? data : [])`
  (MemoriesPage.jsx:74), depends on the decoded JSON's runtime type and is not
  modelled.
- The start-suggestion click handler in the trip page markup
  (TripPage.jsx:276-281). It is UI glue that copies a candidate's fields into
  state.
- Memories.UploadPhoto: `photos` is the list as it was when the file was
  chosen. The page computes the delay from that list and then replaces the
  current photo state with it plus the new photo (MemoriesPage.jsx:114-124),
  not as a functional update. An upload or removal that completed while the
  file was being read is therefore undone. With two overlapping uploads, both
  get the same delay and the first is lost. The model treats an upload as one
  atomic step and does not model this interleaving.
- Memories.SaveMemory: when the save request throws, the model reports a
  fixed failure text. The source interpolates the thrown error's message,
  which the model does not have.
- TripMap.UpdateMarkers: a marker's popup is kept as its title and its
  address (or ""). The HTML string it is built into is not modelled.
- Duration.FormatDuration: minutes are whole numbers without a size limit. The
  source works on doubles, so past 2^53 minutes the arithmetic is no longer
  exact, and from 10^21 hours on `${hours}` is written in exponent form.
  Neither is modelled.
- Markup-only components (landing page, navigation, help, about, sign-in,
  grid tiles, animated backgrounds). They hold no statable logic.

=== FILE: duration.dfy ===
/** `formatDuration` of the memories page: a trip length in minutes rendered as
    "H hour(s) M minute(s)", together with a reader for that wording that is used
    to state what the rendering means. */
module Duration {
  import opened Wrappers
  import opened JsText

  /** The JavaScript value handed to `formatDuration`: missing, of another type
      (with its truthiness), the number NaN, or an integral number of minutes. */
  datatype MinutesValue = Absent | NonNumber(truthy: bool) | NaN | Minutes(n: int)

  /** JavaScript truthiness of such a value. */
  predicate MinutesTruthy(x: MinutesValue) {
    match x
    case Absent => false
    case NonNumber(t) => t
    case NaN => false
    case Minutes(n) => n != 0
  }

  datatype TimeUnit = Minute | Hour

  /** The unit word, singular exactly for a count of one. */
  function UnitWord(u: TimeUnit, count: nat): string {
    match u
    case Minute => if count == 1 then "minute" else "minutes"
    case Hour => if count == 1 then "hour" else "hours"
  }

  /** `${count} ${word}` */
  function Quantity(count: nat, u: TimeUnit): string {
    NatToString(count) + " " + UnitWord(u, count)
  }

  /** `Math.floor(minutes / 60)` and `minutes % 60` for a positive whole number of minutes. */
  function SplitMinutes(n: nat): (hm: (nat, nat))
    ensures hm.0 * 60 + hm.1 == n
    ensures hm.1 < 60
  {
    (n / 60, n % 60)
  }

  /** What the memories page shows for a trip's duration. */
  function FormatDuration(x: MinutesValue): (r: string)
    ensures !(x.Minutes? && x.n > 0) ==> r == "0 minutes"
  {
    match x
    case Minutes(n) =>
      if n <= 0 then "0 minutes"
      else
        var (hours, mins) := SplitMinutes(n);
        if hours == 0 then Quantity(mins, Minute)
        else if mins == 0 then Quantity(hours, Hour)
        else Quantity(hours, Hour) + " " + Quantity(mins, Minute)
    case _ => "0 minutes"
  }

  /** One "<digits> <unit word>" group read off the front of a string. */
  datatype Reading = Reading(count: nat, unit: TimeUnit, rest: string)

  /** Reads a unit word that agrees in number with `count`: the singular word is
      accepted only for a count of one, the plural only for any other count. */
  function ReadUnit(count: nat, w: string): Option<Reading> {
    if count == 1 then
      if "minute" <= w then Some(Reading(count, Minute, w[6..]))
      else if "hour" <= w then Some(Reading(count, Hour, w[4..]))
      else None
    else
      if "minutes" <= w then Some(Reading(count, Minute, w[7..]))
      else if "hours" <= w then Some(Reading(count, Hour, w[5..]))
      else None
  }

  /** One group: a decimal count without superfluous leading zeros, a space and
      a unit word agreeing with the count. */
  function ReadQuantity(s: string): Option<Reading> {
    var k := DigitRun(s);
    if k == 0 || k >= |s| || s[k] != ' ' || (k > 1 && s[0] == '0') then None
    else ReadUnit(DigitsValue(s[..k]), s[k + 1..])
  }

  /** The number of minutes a duration phrase stands for, or None when the phrase
      is not one `formatDuration` can produce: "M minute(s)" with M below 60,
      "H hour(s)" with H at least one, or "H hour(s) M minute(s)" with H at least
      one and M from 1 to 59, every word agreeing in number with its count. */
  function ParseDuration(s: string): Option<nat> {
    ParseAfterFirst(ReadQuantity(s))
  }

  /** The rest of `ParseDuration` once the first group has been read. */
  function ParseAfterFirst(first: Option<Reading>): Option<nat> {
    match first
    case None => None
    case Some(q) =>
      if q.rest == "" then
        if q.unit == Minute && q.count < 60 then Some(q.count)
        else if q.unit == Hour && q.count > 0 then Some(60 * q.count)
        else None
      else if q.unit == Hour && q.count > 0 && q.rest[0] == ' ' then
        match ReadQuantity(q.rest[1..])
        case Some(q2) =>
          if q2.unit == Minute && 0 < q2.count < 60 && q2.rest == "" then Some(60 * q.count + q2.count)
          else None
        case None => None
      else None
  }

  /** A unit word that agrees with its count reads back as that unit. */
  lemma ReadUnitOf(count: nat, u: TimeUnit, t: string)
    requires t == [] || t[0] == ' '
    ensures ReadUnit(count, UnitWord(u, count) + t) == Some(Reading(count, u, t))
  {
    var w := UnitWord(u, count) + t;
    assert UnitWord(u, count) <= w;
    assert w[|UnitWord(u, count)|..] == t;
    if u == Hour {
      assert w[0] == 'h';
    }
  }

  /** A canonical digit string, a space and a unit word read as the digits' value and that word. */
  lemma ReadDigitsThen(d: string, wt: string)
    requires CanonicalDigits(d)
    ensures ReadQuantity(d + " " + wt) == ReadUnit(DigitsValue(d), wt)
  {
    var s := d + " " + wt;
    assert s == d + (" " + wt);
    DigitRunOfDigitsThen(d, " " + wt);
    assert s[..|d|] == d;
    assert s[0] == d[0];
    assert s[|d|] == ' ';
    assert s[|d| + 1..] == wt;
  }

  /** A rendered group reads back as its count and unit, leaving what follows it. */
  lemma ReadQuantityOf(count: nat, u: TimeUnit, t: string)
    requires t == [] || t[0] == ' '
    ensures ReadQuantity(Quantity(count, u) + t) == Some(Reading(count, u, t))
  {
    var d := NatToString(count);
    var wt := UnitWord(u, count) + t;
    assert Quantity(count, u) + t == d + " " + wt;
    ReadDigitsThen(d, wt);
    NatToStringRoundTrip(count);
    ReadUnitOf(count, u, t);
  }

  /** A minutes-only group under an hour reads back as its count. */
  lemma ParseMinutesOnly(count: nat)
    requires count < 60
    ensures ParseDuration(Quantity(count, Minute)) == Some(count)
  {
    ReadQuantityOf(count, Minute, []);
    assert Quantity(count, Minute) + [] == Quantity(count, Minute);
  }

  /** A non-zero hours-only group reads back as that many hours in minutes. */
  lemma ParseHoursOnly(count: nat, s: string, n: nat)
    requires count > 0 && n == 60 * count && s == Quantity(count, Hour)
    ensures ParseDuration(s) == Some(n)
  {
    ReadQuantityOf(count, Hour, []);
    assert s + [] == s;
  }

  /** An hours group followed by a minutes group reads back as their total. */
  lemma ParseTwoGroups(hours: nat, mins: nat, s: string, n: nat)
    requires hours > 0 && 0 < mins < 60 && n == 60 * hours + mins
    requires s == Quantity(hours, Hour) + " " + Quantity(mins, Minute)
    ensures ParseDuration(s) == Some(n)
  {
    var head := Quantity(hours, Hour);
    var tail := Quantity(mins, Minute);
    assert s == head + (" " + tail);
    ReadQuantityOf(hours, Hour, " " + tail);
    ReadQuantityOf(mins, Minute, []);
    assert tail + [] == tail;
    MinutesAfterHours(hours, mins, tail);
  }

  /** After an hours group, a space and a final minutes group complete the phrase. */
  lemma MinutesAfterHours(hours: nat, mins: nat, tail: string)
    requires hours > 0 && 0 < mins < 60
    requires ReadQuantity(tail) == Some(Reading(mins, Minute, []))
    ensures ParseAfterFirst(Some(Reading(hours, Hour, " " + tail))) == Some(60 * hours + mins)
  {
  }

  /** Whatever a unit word was read from is that word followed by the rest. */
  lemma ReadUnitInverse(count: nat, w: string, q: Reading)
    requires ReadUnit(count, w) == Some(q)
    ensures q.count == count && w == UnitWord(q.unit, count) + q.rest
  {
    var word := UnitWord(q.unit, count);
    assert word <= w && q.rest == w[|word|..] by {
      if count == 1 {
        assert word == (if q.unit == Minute then "minute" else "hour");
      } else {
        assert word == (if q.unit == Minute then "minutes" else "hours");
      }
    }
    assert w == w[..|word|] + w[|word|..];
  }

  /** Whatever a group was read from is that group's rendering followed by the rest. */
  lemma ReadQuantityInverse(s: string, q: Reading)
    requires ReadQuantity(s) == Some(q)
    ensures s == Quantity(q.count, q.unit) + q.rest
  {
    var k := DigitRun(s);
    ReadQuantityParts(s, q);
    var d := s[..k];
    var w := s[k + 1..];
    CanonicalDigitsRoundTrip(d);
    ReadUnitInverse(DigitsValue(d), w, q);
    Reassemble(s, k, UnitWord(q.unit, q.count), q.rest);
  }

  lemma Reassemble(s: string, k: nat, word: string, rest: string)
    requires k < |s| && s[k] == ' ' && s[k + 1..] == word + rest
    ensures s == s[..k] + " " + word + rest
  {
    assert s == s[..k] + [s[k]] + s[k + 1..];
  }

  /** What `ReadQuantity` checked before it read the unit word. */
  lemma ReadQuantityParts(s: string, q: Reading)
    requires ReadQuantity(s) == Some(q)
    ensures var k := DigitRun(s);
            && 0 < k < |s| && s[k] == ' ' && CanonicalDigits(s[..k])
            && ReadUnit(DigitsValue(s[..k]), s[k + 1..]) == Some(q)
  {
    var k := DigitRun(s);
    assert s[..k][0] == s[0];
  }


  /** A phrase that reads as `n` minutes is exactly what `formatDuration` shows for `n`. */
  lemma ParseDurationInverse(s: string, n: nat)
    requires ParseDuration(s) == Some(n)
    ensures s == FormatDuration(Minutes(n))
  {
    var q := ReadQuantity(s).value;
    ReadQuantityInverse(s, q);
    if q.rest == "" {
      OneGroupInverse(q, n);
    } else {
      TwoGroupsInverse(q, n);
    }
  }

  lemma OneGroupInverse(q: Reading, n: nat)
    requires q.rest == ""
    requires ParseAfterFirst(Some(q)) == Some(n)
    ensures Quantity(q.count, q.unit) + q.rest == FormatDuration(Minutes(n))
  {
    assert Quantity(q.count, q.unit) + q.rest == Quantity(q.count, q.unit);
    if q.unit == Minute {
      MinutesOnlyIsRendering(q.count);
    } else {
      HoursOnlyIsRendering(q.count);
    }
  }

  lemma TwoGroupsInverse(q: Reading, n: nat)
    requires q.rest != ""
    requires ParseAfterFirst(Some(q)) == Some(n)
    ensures Quantity(q.count, q.unit) + q.rest == FormatDuration(Minutes(n))
  {
    var tail := q.rest[1..];
    var q2 := ReadQuantity(tail).value;
    SecondGroupRead(q, n, q2);
    ReadQuantityInverse(tail, q2);
    assert q.rest == " " + Quantity(q2.count, Minute);
    TwoGroupsAreRendering(q.count, q2.count, Quantity(q.count, q.unit) + q.rest, n);
  }

  /** What `ParseAfterFirst` learnt when it accepted a second group. */
  lemma SecondGroupRead(q: Reading, n: nat, q2: Reading)
    requires q.rest != ""
    requires ParseAfterFirst(Some(q)) == Some(n)
    requires q2 == ReadQuantity(q.rest[1..]).value
    ensures q.unit == Hour && q.count > 0 && q.rest[0] == ' '
    ensures ReadQuantity(q.rest[1..]) == Some(q2)
    ensures q2.unit == Minute && 0 < q2.count < 60 && q2.rest == ""
    ensures n == 60 * q.count + q2.count
  {
  }

  lemma MinutesOnlyIsRendering(count: nat)
    requires count < 60
    ensures Quantity(count, Minute) == FormatDuration(Minutes(count))
  {
    if count == 0 {
      assert NatToString(0) == "0";
    }
  }

  lemma HoursOnlyIsRendering(count: nat)
    requires count > 0
    ensures Quantity(count, Hour) == FormatDuration(Minutes(60 * count))
  {
    assert SplitMinutes(60 * count) == (count, 0);
  }

  lemma TwoGroupsAreRendering(hours: nat, mins: nat, s: string, n: nat)
    requires hours > 0 && 0 < mins < 60 && n == 60 * hours + mins
    requires s == Quantity(hours, Hour) + " " + Quantity(mins, Minute)
    ensures s == FormatDuration(Minutes(n))
  {
    assert SplitMinutes(n) == (hours, mins);
  }

  /** Every rendered duration reads back as the number of minutes it renders:
      the input itself when positive, zero otherwise. In particular every unit word
      is singular exactly when its count is one, and hours precede minutes. */
  lemma FormatDurationReadsBack(x: MinutesValue)
    ensures ParseDuration(FormatDuration(x)) == Some(if x.Minutes? && x.n > 0 then x.n as nat else 0)
  {
    if x.Minutes? && x.n > 0 {
      PositiveReadsBack(x.n);
    } else {
      ParseMinutesOnly(0);
      assert NatToString(0) == "0";
      assert Quantity(0, Minute) == "0 minutes";
    }
  }

  lemma PositiveReadsBack(n: int)
    requires n > 0
    ensures ParseDuration(FormatDuration(Minutes(n))) == Some(n as nat)
  {
    if n < 60 {
      UnderAnHourReadsBack(n);
    } else if n % 60 == 0 {
      WholeHoursReadBack(n);
    } else {
      HoursAndMinutesReadBack(n);
    }
  }

  lemma UnderAnHourReadsBack(n: int)
    requires 0 < n < 60
    ensures ParseDuration(FormatDuration(Minutes(n))) == Some(n as nat)
  {
    assert FormatDuration(Minutes(n)) == Quantity(n, Minute);
    ParseMinutesOnly(n);
  }

  lemma WholeHoursReadBack(n: int)
    requires n >= 60 && n % 60 == 0
    ensures ParseDuration(FormatDuration(Minutes(n))) == Some(n as nat)
  {
    var (h, m) := SplitMinutes(n);
    FormatWholeHours(n, h, m);
    ParseHoursOnly(h, FormatDuration(Minutes(n)), n);
  }

  lemma FormatWholeHours(n: nat, h: nat, m: nat)
    requires n >= 60 && n % 60 == 0 && (h, m) == SplitMinutes(n)
    ensures h > 0 && n == 60 * h
    ensures FormatDuration(Minutes(n)) == Quantity(h, Hour)
  {
  }

  lemma HoursAndMinutesReadBack(n: int)
    requires n >= 60 && n % 60 != 0
    ensures ParseDuration(FormatDuration(Minutes(n))) == Some(n as nat)
  {
    var (h, m) := SplitMinutes(n);
    FormatHoursAndMinutes(n, h, m);
    ParseTwoGroups(h, m, FormatDuration(Minutes(n)), n);
  }

  lemma FormatHoursAndMinutes(n: nat, h: nat, m: nat)
    requires n >= 60 && n % 60 != 0 && (h, m) == SplitMinutes(n)
    ensures h > 0 && 0 < m < 60
    ensures FormatDuration(Minutes(n)) == Quantity(h, Hour) + " " + Quantity(m, Minute)
  {
  }

  /** Different positive durations are never rendered alike. */
  lemma FormatDurationInjective(a: int, b: int)
    requires a > 0 && b > 0
    requires FormatDuration(Minutes(a)) == FormatDuration(Minutes(b))
    ensures a == b
  {
    FormatDurationReadsBack(Minutes(a));
    FormatDurationReadsBack(Minutes(b));
  }

  /** The duration wording is canonical: a phrase reads as `n` minutes exactly
      when it is what the memories page shows for `n`. */
  lemma DurationTextCanonical(s: string, n: nat)
    ensures ParseDuration(s) == Some(n) <==> s == FormatDuration(Minutes(n))
  {
    if ParseDuration(s) == Some(n) {
      ParseDurationInverse(s, n);
    }
    if s == FormatDuration(Minutes(n)) {
      FormatDurationReadsBack(Minutes(n));
    }
  }
}

=== FILE: events.dfy ===
/** The pure logic of the events page: which fetched events are kept and
    listed, how events become map places, which booking link is opened, and how
    "add to itinerary" classifies an event. */
module Events {
  import opened Wrappers
  import opened Seqs
  import opened JsText
  import opened Places
  import TripMap

  /** An event's `location`; either coordinate may be missing. */
  datatype Location = Location(latitude: Option<Number>, longitude: Option<Number>)

  /** An event's `address`: missing, a string, or an array of lines. */
  datatype EventAddress = NoAddress | Text(text: string) | Lines(lines: seq<string>)

  /** One entry of the event search's `events_results`. `ticketLink` is
      `ticket_info.extensions.link`, missing when any step of that path is. */
  datatype Event = Event(
    title: Option<string>,
    location: Option<Location>,
    address: EventAddress,
    ticketLink: Option<string>,
    link: Option<string>)

  /** The decoded reply of the event search; `events_results` may be absent. */
  datatype EventsReply = EventsReply(eventsResults: Option<seq<Event>>)

  /** At most this many events are listed and placed on the map. */
  const MaxShown: nat := 10

  function NumberTruthy(o: Option<Number>): bool {
    o.Some? && o.value.Truthy()
  }

  /** `event.location?.latitude && event.location?.longitude`: both present,
      non-zero and not NaN. */
  predicate HasCoordinates(e: Event) {
    e.location.Some? && NumberTruthy(e.location.value.latitude) && NumberTruthy(e.location.value.longitude)
  }

  /** `fetchEvents`: the results when there are some, otherwise none; a request or
      decoding failure (`reply` None) also leaves none. */
  function FetchedEvents(reply: Option<EventsReply>): (r: seq<Event>)
    ensures reply.Some? && reply.value.eventsResults.Some? && |reply.value.eventsResults.value| > 0
            ==> r == reply.value.eventsResults.value
    ensures !(reply.Some? && reply.value.eventsResults.Some? && |reply.value.eventsResults.value| > 0) ==> r == []
  {
    match reply
    case Some(EventsReply(Some(results))) => if |results| > 0 then results else []
    case _ => []
  }

  /** The events listed on the page: the first ten. */
  function ListedEvents(events: seq<Event>): (r: seq<Event>)
    ensures |r| == Min(MaxShown, |events|)
    ensures r == events[..|r|]
  {
    Take(events, MaxShown)
  }

  /** The page lists the leading events of the reply, at most ten, and none when the
      reply is missing or has no results. */
  lemma ListedFromReply(reply: Option<EventsReply>)
    ensures var listed := ListedEvents(FetchedEvents(reply));
            && |listed| <= MaxShown
            && (reply.Some? && reply.value.eventsResults.Some? ==>
                  listed == reply.value.eventsResults.value[..|listed|]
                  && |listed| == Min(MaxShown, |reply.value.eventsResults.value|))
            && (reply.None? || reply.value.eventsResults.None? ==> listed == [])
  {
    var fetched := FetchedEvents(reply);
    if reply.Some? && reply.value.eventsResults.Some? && |reply.value.eventsResults.value| == 0 {
      assert fetched == [] == reply.value.eventsResults.value;
    }
  }

  /** The address shown for an event on the map: the first line of an array, else
      the text or "". An empty array has no first line (`undefined`). */
  function PlaceAddress(a: EventAddress): (r: Option<string>)
    ensures a.Lines? ==> (r.Some? <==> |a.lines| > 0)
    ensures a.Lines? && |a.lines| > 0 ==> r == Some(a.lines[0])
    ensures a.Text? ==> r == Some(a.text)
    ensures a.NoAddress? ==> r == Some("")
  {
    match a
    case Lines(lines) => if |lines| > 0 then Some(lines[0]) else None
    case Text(t) => Some(OrDefault(Some(t), ""))
    case NoAddress => Some("")
  }

  /** The map place of an event at `index`: `[longitude, latitude]`, titled
      "Event" when the title is missing or empty. */
  function EventPlace(e: Event, index: int): (p: MapPlace)
    requires HasCoordinates(e)
    ensures p.coordinates == Some([e.location.value.longitude.value, e.location.value.latitude.value])
    ensures p.title == OrDefault(e.title, "Event")
    ensures p.address == PlaceAddress(e.address)
    ensures p.isEvent && p.eventIndex == Some(index) && !p.isStart
  {
    MapPlace(OrDefault(e.title, "Event"),
             Some([e.location.value.longitude.value, e.location.value.latitude.value]),
             PlaceAddress(e.address), None, Some(index), false, true)
  }

  function IndexedPlaces(events: seq<Event>, first: int): (r: seq<MapPlace>)
    requires forall i :: 0 <= i < |events| ==> HasCoordinates(events[i])
    ensures |r| == |events|
    ensures forall i :: 0 <= i < |r| ==> r[i] == EventPlace(events[i], first + i)
  {
    if |events| == 0 then [] else [EventPlace(events[0], first)] + IndexedPlaces(events[1..], first + 1)
  }

  /** The events page's map places: the events with coordinates, at most ten of
      them, in order, numbered from 0. */
  function MapPlaces(events: seq<Event>): (r: seq<MapPlace>)
    ensures var located := Filter(events, HasCoordinates);
            && |r| == Min(MaxShown, |located|)
            && forall i :: 0 <= i < |r| ==> r[i] == EventPlace(located[i], i)
  {
    var located := Filter(events, HasCoordinates);
    IndexedPlaces(Take(located, MaxShown), 0)
  }

  /** Every event place has two non-NaN coordinates, so the map gives each one a marker. */
  lemma EventPlacesAllMarked(events: seq<Event>)
    ensures |TripMap.MarkersFor(MapPlaces(events))| == |MapPlaces(events)|
  {
    TripMap.AllDrawableAllMarked(MapPlaces(events));
  }

  /** An event without coordinates, wherever it stands in the list, never changes
      the map places. */
  lemma MapPlacesSkipUnlocated(a: seq<Event>, e: Event, b: seq<Event>)
    requires !HasCoordinates(e)
    ensures MapPlaces(a + [e] + b) == MapPlaces(a + b)
  {
    LocatedSkipUnlocated(a, e, b);
  }

  lemma LocatedSkipUnlocated(a: seq<Event>, e: Event, b: seq<Event>)
    requires !HasCoordinates(e)
    ensures Filter(a + [e] + b, HasCoordinates) == Filter(a + b, HasCoordinates)
  {
    FilterConcat(a + [e], b, HasCoordinates);
    FilterConcat(a, [e], HasCoordinates);
    FilterSingleton(e, HasCoordinates);
    FilterConcat(a, b, HasCoordinates);
  }

  /** What "Book Tickets" does: open a link in a new tab, or say there is none. */
  datatype Booking = OpenInNewTab(url: string) | NoBookingLink

  /** `bookTickets`: the ticket link when truthy, else the event link when truthy. */
  function BookTickets(e: Event): (b: Booking)
    ensures Truthy(e.ticketLink) ==> b == OpenInNewTab(e.ticketLink.value)
    ensures !Truthy(e.ticketLink) && Truthy(e.link) ==> b == OpenInNewTab(e.link.value)
    ensures b.NoBookingLink? <==> !Truthy(e.ticketLink) && !Truthy(e.link)
  {
    if Truthy(e.ticketLink) then OpenInNewTab(e.ticketLink.value)
    else if Truthy(e.link) then OpenInNewTab(e.link.value)
    else NoBookingLink
  }

  /** How "Add to Itinerary" treats an event. */
  datatype AddOutcome =
    | Ready(title: string, coords: seq<Number>)
    | AddManually(title: string, address: string)
    | NoLocation(title: string)

  /** The address `addEventToItinerary` uses: the first line of an array, else the text. */
  function ItineraryAddress(a: EventAddress): Option<string> {
    match a
    case Lines(lines) => if |lines| > 0 then Some(lines[0]) else None
    case Text(t) => Some(t)
    case NoAddress => None
  }

  /** `addEventToItinerary`: ready with `[longitude, latitude]` when both are truthy;
      otherwise to be added by hand when there is a non-empty address; otherwise no
      location. The title defaults to "Untitled Event". */
  function ClassifyForItinerary(e: Event): (o: AddOutcome)
    ensures o.title == OrDefault(e.title, "Untitled Event")
    ensures o.Ready? <==> HasCoordinates(e)
    ensures o.Ready? ==> o.coords == [e.location.value.longitude.value, e.location.value.latitude.value]
    ensures o.AddManually? <==> !HasCoordinates(e) && Truthy(ItineraryAddress(e.address))
    ensures o.AddManually? ==> Some(o.address) == ItineraryAddress(e.address)
  {
    var title := OrDefault(e.title, "Untitled Event");
    var address := ItineraryAddress(e.address);
    if HasCoordinates(e) then
      Ready(title, [e.location.value.longitude.value, e.location.value.latitude.value])
    else if Truthy(address) then AddManually(title, address.value)
    else NoLocation(title)
  }

  /** "Add to Itinerary" and the map apply the same location test. Among the
      listed events, one reported ready is the map place numbered by how many
      located events precede it, at the coordinates the report names; one not
      reported ready leaves the map as if it were not in the list. Nothing is added
      anywhere: the page only reports the classification. */
  lemma ListedEventOnMap(events: seq<Event>, i: int)
    requires 0 <= i < |ListedEvents(events)|
    ensures var k := |Filter(events[..i], HasCoordinates)|;
            ClassifyForItinerary(events[i]).Ready? ==>
              && k < |MapPlaces(events)|
              && MapPlaces(events)[k] == EventPlace(events[i], k)
              && MapPlaces(events)[k].coordinates == Some(ClassifyForItinerary(events[i]).coords)
    ensures !ClassifyForItinerary(events[i]).Ready? ==>
              MapPlaces(events) == MapPlaces(events[..i] + events[i + 1..])
  {
    var e := events[i];
    var before := events[..i];
    var after := events[i + 1..];
    assert events == before + [e] + after;
    if HasCoordinates(e) {
      var located := Filter(events, HasCoordinates);
      FilterConcat(before + [e], after, HasCoordinates);
      FilterConcat(before, [e], HasCoordinates);
      FilterSingleton(e, HasCoordinates);
      var k := |Filter(before, HasCoordinates)|;
      assert located[k] == e;
      assert k <= i < MaxShown;
    } else {
      MapPlacesSkipUnlocated(before, e, after);
    }
  }

  /** The event link is only a fallback: while the ticket link is truthy, the event
      link does not matter. */
  lemma TicketLinkTakesPriority(e: Event, link: Option<string>)
    requires Truthy(e.ticketLink)
    ensures BookTickets(e.(link := link)) == BookTickets(e)
  {
  }
}

=== FILE: jstext.dfy ===
/** The JavaScript string behaviour the components rely on: `String.prototype.trim`,
    the `a || b` defaulting of possibly-missing strings, and the decimal
    rendering of a non-negative integer inside a template literal. */
module JsText {
  import opened Wrappers

  /** ECMAScript WhiteSpace and LineTerminator code points, the set `trim` strips. */
  predicate IsWhitespace(c: char) {
    c == '\t' || c == '\n' || c == '\U{B}' || c == '\U{C}' || c == '\r' || c == ' '
    || c == '\U{A0}' || c == '\U{1680}' || ('\U{2000}' <= c <= '\U{200A}')
    || c == '\U{2028}' || c == '\U{2029}' || c == '\U{202F}' || c == '\U{205F}'
    || c == '\U{3000}' || c == '\U{FEFF}'
  }

  /** Number of white-space characters at the start of `s`. */
  function LeadLength(s: string): (k: nat)
    ensures k <= |s|
    ensures forall i :: 0 <= i < k ==> IsWhitespace(s[i])
    ensures k < |s| ==> !IsWhitespace(s[k])
  {
    if |s| > 0 && IsWhitespace(s[0]) then 1 + LeadLength(s[1..]) else 0
  }

  /** Drops trailing white space. */
  function TrimEnd(s: string): (r: string)
    ensures |r| <= |s| && r == s[..|r|]
    ensures forall i :: |r| <= i < |s| ==> IsWhitespace(s[i])
    ensures |r| > 0 ==> !IsWhitespace(r[|r| - 1])
  {
    if |s| > 0 && IsWhitespace(s[|s| - 1]) then TrimEnd(s[..|s| - 1]) else s
  }

  /** `s.trim()`: the longest infix of `s` that neither starts nor ends with white space;
      everything cut off on either side is white space. */
  function Trim(s: string): (r: string)
    ensures LeadLength(s) + |r| <= |s|
    ensures r == s[LeadLength(s)..LeadLength(s) + |r|]
    ensures forall i :: LeadLength(s) + |r| <= i < |s| ==> IsWhitespace(s[i])
    ensures |r| > 0 ==> !IsWhitespace(r[0]) && !IsWhitespace(r[|r| - 1])
    ensures r == [] <==> forall i :: 0 <= i < |s| ==> IsWhitespace(s[i])
  {
    var lead := LeadLength(s);
    var r := TrimEnd(s[lead..]);
    assert r == s[lead..][..|r|];
    assert s[lead..][..|r|] == s[lead..lead + |r|];
    assert forall i :: lead + |r| <= i < |s| ==> s[i] == s[lead..][i - lead];
    r
  }

  /** JavaScript truthiness of a possibly-missing string: present and non-empty. */
  predicate Truthy(o: Option<string>) {
    o.Some? && o.value != ""
  }

  /** `o || fallback` for a possibly-missing string. */
  function OrDefault(o: Option<string>, fallback: string): (r: string)
    ensures Truthy(o) ==> r == o.value
    ensures !Truthy(o) ==> r == fallback
  {
    match o
    case Some(s) => if s != "" then s else fallback
    case None => fallback
  }

  predicate IsDigit(c: char) {
    '0' <= c <= '9'
  }

  predicate AllDigits(s: string) {
    forall i :: 0 <= i < |s| ==> IsDigit(s[i])
  }

  function DigitChar(d: nat): (c: char)
    requires d < 10
    ensures IsDigit(c)
  {
    "0123456789"[d]
  }

  function DigitValue(c: char): nat
    requires IsDigit(c)
  {
    (c as int) - ('0' as int)
  }

  /** The decimal rendering of `n`, as a template literal `${n}` produces it for an
      integer below 10^21 (larger numbers are rendered in exponent form). */
  function NatToString(n: nat): (r: string)
    ensures |r| > 0 && AllDigits(r)
    ensures |r| > 1 ==> r[0] != '0'
  {
    if n < 10 then [DigitChar(n)] else NatToString(n / 10) + [DigitChar(n % 10)]
  }

  /** The number a string of decimal digits denotes. */
  function DigitsValue(s: string): nat
    requires AllDigits(s)
  {
    if |s| == 0 then 0 else 10 * DigitsValue(s[..|s| - 1]) + DigitValue(s[|s| - 1])
  }

  /** Reading back a rendered number gives the number. */
  lemma {:induction false} NatToStringRoundTrip(n: nat)
    ensures DigitsValue(NatToString(n)) == n
  {
    if n >= 10 {
      var r := NatToString(n);
      assert r[..|r| - 1] == NatToString(n / 10);
      NatToStringRoundTrip(n / 10);
    }
  }

  /** A rendering without superfluous leading zeros, as `NatToString` produces. */
  predicate CanonicalDigits(d: string) {
    |d| > 0 && AllDigits(d) && (|d| > 1 ==> d[0] != '0')
  }

  lemma DigitCharOfValue(c: char)
    requires IsDigit(c)
    ensures DigitChar(DigitValue(c)) == c
  {
    if c == '0' {} else if c == '1' {} else if c == '2' {} else if c == '3' {} else if c == '4' {}
    else if c == '5' {} else if c == '6' {} else if c == '7' {} else if c == '8' {} else {}
  }

  lemma {:induction false} LeadingNonZeroPositive(d: string)
    requires |d| > 0 && AllDigits(d) && d[0] != '0'
    ensures DigitsValue(d) > 0
  {
    if |d| > 1 {
      var init := d[..|d| - 1];
      assert init[0] == d[0];
      LeadingNonZeroPositive(init);
    }
  }

  /** A canonical digit string is the rendering of the number it denotes. */
  lemma {:induction false} CanonicalDigitsRoundTrip(d: string)
    requires CanonicalDigits(d)
    ensures NatToString(DigitsValue(d)) == d
  {
    var last := d[|d| - 1];
    DigitCharOfValue(last);
    if |d| > 1 {
      var init := d[..|d| - 1];
      assert init[0] == d[0];
      LeadingNonZeroPositive(init);
      CanonicalDigitsRoundTrip(init);
      var n := DigitsValue(d);
      assert n == 10 * DigitsValue(init) + DigitValue(last);
      assert n / 10 == DigitsValue(init) && n % 10 == DigitValue(last);
      assert d == init + [last];
    }
  }

  /** The length JavaScript reports for a string: UTF-16 code units, so a code
      point beyond U+FFFF counts twice. */
  function Utf16Length(s: string): (r: nat)
    ensures |s| <= r <= 2 * |s|
  {
    if |s| == 0 then 0 else (if s[0] >= '\U{10000}' then 2 else 1) + Utf16Length(s[1..])
  }

  /** Length of the run of decimal digits at the start of `s`. */
  function DigitRun(s: string): (k: nat)
    ensures k <= |s| && AllDigits(s[..k])
    ensures k < |s| ==> !IsDigit(s[k])
  {
    if |s| > 0 && IsDigit(s[0]) then
      var k := 1 + DigitRun(s[1..]);
      assert s[..k] == [s[0]] + s[1..][..k - 1];
      k
    else 0
  }

  /** The digit run of a digit string followed by a non-digit ends exactly there. */
  lemma {:induction false} DigitRunOfDigitsThen(d: string, t: string)
    requires AllDigits(d)
    requires |t| > 0 && !IsDigit(t[0])
    ensures DigitRun(d + t) == |d|
  {
    if |d| > 0 {
      assert (d + t)[1..] == d[1..] + t;
      DigitRunOfDigitsThen(d[1..], t);
    } else {
      assert d + t == t;
    }
  }
}

=== FILE: memories.dfy ===
/** The pure logic of the memories page: saving a memory into the locally kept
    list (an upsert keyed by trip id), the in-memory photo list with its
    removal and per-itinerary filter, the photo metadata that is persisted,
    deleting a fetched memory, and the map places of the selected itinerary. */
module Memories {
  import opened Wrappers
  import opened Seqs
  import opened JsText
  import opened Places
  import opened Duration
  import TripMap

  /** The selected saved itinerary: its trip id, its stops (possibly absent)
      and its duration in minutes. */
  datatype SavedItinerary = SavedItinerary(tripId: string, itinerary: Option<seq<ItineraryItem>>, duration: MinutesValue)

  /** A photo held in memory. `rotate` is the random tilt, `delayTenths` is the
      animation delay in tenths of a second (`count * 0.1`). */
  datatype Photo = Photo(
    id: int,
    src: string,
    itineraryId: string,
    uploadedAt: string,
    rotate: Number,
    delayTenths: nat)

  /** What is persisted of a photo: everything but the image data. */
  datatype PhotoMeta = PhotoMeta(id: int, itineraryId: string, uploadedAt: string, rotate: Number, delayTenths: nat)

  /** The locally kept record of a saved memory. */
  datatype Memory = Memory(
    tripId: string,
    itinerary: Option<seq<ItineraryItem>>,
    notes: string,
    photoCount: nat,
    savedAt: string)

  /** The body POSTed to the memory service. */
  datatype MemoryRequest = MemoryRequest(tripId: string, email: string, images: seq<string>, additionalInfo: string)

  /** The photos belonging to an itinerary. */
  function PhotosOf(photos: seq<Photo>, tripId: string): (r: seq<Photo>)
    ensures forall i :: 0 <= i < |r| ==> r[i].itineraryId == tripId && r[i] in photos
    ensures forall i :: 0 <= i < |photos| && photos[i].itineraryId == tripId ==> photos[i] in r
  {
    Filter(photos, (p: Photo) => p.itineraryId == tripId)
  }

  /** Filtering by itinerary works photo by photo: it splits over any division of
      the list, so the trip's photos keep their relative order. */
  lemma PhotosOfKeepsOrder(a: seq<Photo>, b: seq<Photo>, x: Photo, tripId: string)
    ensures PhotosOf(a + b, tripId) == PhotosOf(a, tripId) + PhotosOf(b, tripId)
    ensures PhotosOf([x], tripId) == if x.itineraryId == tripId then [x] else []
  {
    FilterConcat(a, b, (p: Photo) => p.itineraryId == tripId);
    FilterSingleton(x, (p: Photo) => p.itineraryId == tripId);
  }

  /** `currentPhotos`: the selected itinerary's photos, none without a selection. */
  function CurrentPhotos(selected: Option<SavedItinerary>, photos: seq<Photo>): (r: seq<Photo>)
    ensures selected.None? ==> r == []
    ensures selected.Some? ==> r == PhotosOf(photos, selected.value.tripId)
  {
    match selected
    case None => []
    case Some(sel) => PhotosOf(photos, sel.tripId)
  }

  /** `handlePhotoRemove`: every photo with the id goes, the rest stay in order. */
  function RemovePhoto(photos: seq<Photo>, photoId: int): (r: seq<Photo>)
    ensures forall i :: 0 <= i < |r| ==> r[i].id != photoId && r[i] in photos
    ensures forall i :: 0 <= i < |photos| && photos[i].id != photoId ==> photos[i] in r
  {
    Filter(photos, (p: Photo) => p.id != photoId)
  }

  /** Removal works photo by photo: it splits over any division of the list and
      keeps a single photo exactly when its id differs. */
  lemma RemovePhotoKeepsOrder(a: seq<Photo>, b: seq<Photo>, x: Photo, photoId: int)
    ensures RemovePhoto(a + b, photoId) == RemovePhoto(a, photoId) + RemovePhoto(b, photoId)
    ensures RemovePhoto([x], photoId) == if x.id == photoId then [] else [x]
  {
    FilterConcat(a, b, (p: Photo) => p.id != photoId);
    FilterSingleton(x, (p: Photo) => p.id != photoId);
  }

  /** Removing an id no photo has leaves the list as it was; removing twice is removing once. */
  lemma RemovePhotoAbsentOrRepeated(photos: seq<Photo>, photoId: int)
    ensures (forall i :: 0 <= i < |photos| ==> photos[i].id != photoId) ==> RemovePhoto(photos, photoId) == photos
    ensures RemovePhoto(RemovePhoto(photos, photoId), photoId) == RemovePhoto(photos, photoId)
  {
    if forall i :: 0 <= i < |photos| ==> photos[i].id != photoId {
      FilterKeepsAll(photos, (p: Photo) => p.id != photoId);
    }
    FilterIdempotent(photos, (p: Photo) => p.id != photoId);
  }

  function MetaOf(p: Photo): PhotoMeta {
    PhotoMeta(p.id, p.itineraryId, p.uploadedAt, p.rotate, p.delayTenths)
  }

  /** The persisted metadata: one entry per photo, same order, same ids, no image data. */
  function PhotoMetadata(photos: seq<Photo>): (r: seq<PhotoMeta>)
    ensures |r| == |photos|
    ensures forall i :: 0 <= i < |r| ==>
              && r[i].id == photos[i].id
              && r[i].itineraryId == photos[i].itineraryId
              && r[i].uploadedAt == photos[i].uploadedAt
              && r[i].rotate == photos[i].rotate
              && r[i].delayTenths == photos[i].delayTenths
  {
    if |photos| == 0 then [] else [MetaOf(photos[0])] + PhotoMetadata(photos[1..])
  }

  /** `handlePhotoUpload`: the chosen file's data becomes a new photo appended to
      the list, tagged with the selected trip, its delay counting the trip's earlier
      photos. `id`, `uploadedAt` and `rotate` come from the clock and the random
      generator; `file` is the data the file reader produced, absent when no file
      was chosen, in which case nothing changes. Without a selection the upload is
      refused. */
  function UploadPhoto(selected: Option<SavedItinerary>, photos: seq<Photo>, file: Option<string>,
                       id: int, uploadedAt: string, rotate: Number): (r: Result<seq<Photo>, string>)
    ensures selected.None? <==> r.Failure?
    ensures selected.None? ==> r.error == "Please select an itinerary first"
    ensures selected.Some? && file.None? ==> r == Success(photos)
    ensures selected.Some? && file.Some? ==>
              && |r.value| == |photos| + 1
              && r.value[..|photos|] == photos
              && r.value[|photos|] == Photo(id, file.value, selected.value.tripId, uploadedAt, rotate,
                                            |PhotosOf(photos, selected.value.tripId)|)
  {
    match selected
    case None => Failure("Please select an itinerary first")
    case Some(sel) =>
      match file
      case None => Success(photos)
      case Some(src) =>
        Success(photos + [Photo(id, src, sel.tripId, uploadedAt, rotate, |PhotosOf(photos, sel.tripId)|)])
  }

  /** After an upload the trip shows its earlier photos followed by the new one,
      and the new photo's delay is its position among them. */
  lemma UploadAppendsToTrip(sel: SavedItinerary, photos: seq<Photo>, src: string, id: int, uploadedAt: string, rotate: Number)
    ensures var shown := CurrentPhotos(Some(sel), UploadPhoto(Some(sel), photos, Some(src), id, uploadedAt, rotate).value);
            var x := UploadPhoto(Some(sel), photos, Some(src), id, uploadedAt, rotate).value[|photos|];
            && shown == CurrentPhotos(Some(sel), photos) + [x]
            && shown[x.delayTenths] == x
  {
    var added := UploadPhoto(Some(sel), photos, Some(src), id, uploadedAt, rotate).value;
    var x := added[|photos|];
    assert added == photos + [x];
    PhotosOfKeepsOrder(photos, [x], x, sel.tripId);
  }

  /** Upload then removal of the uploaded id, when that id was fresh, restores the list. */
  lemma UploadThenRemove(sel: SavedItinerary, photos: seq<Photo>, src: string, id: int, uploadedAt: string, rotate: Number)
    requires forall i :: 0 <= i < |photos| ==> photos[i].id != id
    ensures RemovePhoto(UploadPhoto(Some(sel), photos, Some(src), id, uploadedAt, rotate).value, id) == photos
  {
    var added := UploadPhoto(Some(sel), photos, Some(src), id, uploadedAt, rotate).value;
    var x := added[|photos|];
    assert added == photos + [x];
    RemovePhotoKeepsOrder(photos, [x], x, id);
    RemovePhotoAbsentOrRepeated(photos, id);
  }

  /** The persisted metadata follows a removal: storing the list left after removing
      an id is storing the old metadata without the entries of that id. */
  lemma {:induction false} MetadataAfterRemove(photos: seq<Photo>, photoId: int)
    ensures PhotoMetadata(RemovePhoto(photos, photoId)) == Filter(PhotoMetadata(photos), (m: PhotoMeta) => m.id != photoId)
  {
    var keep := (p: Photo) => p.id != photoId;
    var keepMeta := (m: PhotoMeta) => m.id != photoId;
    if |photos| > 0 {
      var x := photos[0];
      var rest := photos[1..];
      assert photos == [x] + rest;
      FilterConcat([x], rest, keep);
      FilterSingleton(x, keep);
      MetadataAfterRemove(rest, photoId);
      MetadataConcat(Filter([x], keep), Filter(rest, keep));
      assert PhotoMetadata(photos) == [MetaOf(x)] + PhotoMetadata(rest);
      FilterConcat([MetaOf(x)], PhotoMetadata(rest), keepMeta);
      FilterSingleton(MetaOf(x), keepMeta);
      if keep(x) {
        assert PhotoMetadata([x]) == [MetaOf(x)];
      } else {
        assert PhotoMetadata([]) == [];
      }
    }
  }

  lemma MetadataConcat(a: seq<Photo>, b: seq<Photo>)
    ensures PhotoMetadata(a + b) == PhotoMetadata(a) + PhotoMetadata(b)
  {
    var whole := PhotoMetadata(a + b);
    var parts := PhotoMetadata(a) + PhotoMetadata(b);
    forall i | 0 <= i < |whole|
      ensures whole[i] == parts[i]
    {
      if i < |a| {
        assert (a + b)[i] == a[i];
      } else {
        assert (a + b)[i] == b[i - |a|];
      }
    }
  }


  /** Saving `m` into the kept list: the first memory of the same trip is
      replaced; without one, `m` is appended. */
  function UpsertMemory(memories: seq<Memory>, m: Memory): (r: seq<Memory>)
    ensures var k := FirstIndex(memories, (x: Memory) => x.tripId == m.tripId);
            && (k >= 0 ==> |r| == |memories| && r[k] == m)
            && (k < 0 ==> r == memories + [m])
            && (forall i :: 0 <= i < |memories| && i != k ==> r[i] == memories[i])
  {
    var k := FirstIndex(memories, (x: Memory) => x.tripId == m.tripId);
    if k >= 0 then memories[k := m] else memories + [m]
  }

  /** After a save, the trip's first entry is the saved memory. */
  lemma UpsertThenFind(memories: seq<Memory>, m: Memory)
    ensures var r := UpsertMemory(memories, m);
            var k := FirstIndex(r, (x: Memory) => x.tripId == m.tripId);
            0 <= k < |r| && r[k] == m
  {
    var p := (x: Memory) => x.tripId == m.tripId;
    var k0 := FirstIndex(memories, p);
    var r := UpsertMemory(memories, m);
    var k := FirstIndex(r, p);
    if k0 >= 0 {
      assert p(r[k0]);
      assert forall j :: 0 <= j < k0 ==> r[j] == memories[j] && !p(r[j]);
      assert k == k0;
    } else {
      assert p(r[|memories|]);
      assert forall j :: 0 <= j < |memories| ==> r[j] == memories[j] && !p(r[j]);
      assert k == |memories|;
    }
  }

  /** Saving the same memory twice is the same as saving it once. */
  lemma UpsertIdempotent(memories: seq<Memory>, m: Memory)
    ensures UpsertMemory(UpsertMemory(memories, m), m) == UpsertMemory(memories, m)
  {
    var r := UpsertMemory(memories, m);
    UpsertThenFind(memories, m);
    var k := FirstIndex(r, (x: Memory) => x.tripId == m.tripId);
    assert r[k := m] == r;
  }

  /** No two kept memories share a trip id. */
  predicate DistinctTrips(memories: seq<Memory>) {
    forall i, j :: 0 <= i < j < |memories| ==> memories[i].tripId != memories[j].tripId
  }

  /** Saving keeps trip ids distinct. */
  lemma UpsertKeepsTripsDistinct(memories: seq<Memory>, m: Memory)
    requires DistinctTrips(memories)
    ensures DistinctTrips(UpsertMemory(memories, m))
  {
  }

  /** The memory the page keeps for the selected itinerary. */
  function MemoryFor(sel: SavedItinerary, notes: string, photos: seq<Photo>, savedAt: string): (m: Memory)
    ensures m.tripId == sel.tripId && m.itinerary == sel.itinerary && m.notes == notes
    ensures m.photoCount == |PhotosOf(photos, sel.tripId)|
  {
    Memory(sel.tripId, sel.itinerary, notes, |PhotosOf(photos, sel.tripId)|, savedAt)
  }

  function Sources(photos: seq<Photo>): (r: seq<string>)
    ensures |r| == |photos|
    ensures forall i :: 0 <= i < |r| ==> r[i] == photos[i].src
  {
    if |photos| == 0 then [] else [photos[0].src] + Sources(photos[1..])
  }

  /** The request `handleSaveMemory` sends: the trip's photo data, and the notes
      or "Amazing trip!" when there are none. */
  function MemoryRequestFor(sel: SavedItinerary, email: string, photos: seq<Photo>, notes: string): (q: MemoryRequest)
    ensures q.tripId == sel.tripId && q.email == email
    ensures |q.images| == |PhotosOf(photos, sel.tripId)|
    ensures forall i :: 0 <= i < |q.images| ==> q.images[i] == PhotosOf(photos, sel.tripId)[i].src
    ensures notes != "" ==> q.additionalInfo == notes
    ensures notes == "" ==> q.additionalInfo == "Amazing trip!"
  {
    MemoryRequest(sel.tripId, email, Sources(PhotosOf(photos, sel.tripId)), OrDefault(Some(notes), "Amazing trip!"))
  }

  /** What `handleSaveMemory` does to the kept memories. Without a selection or an
      access token nothing is saved. The kept list is only updated once the server
      has answered (with any status); when the request throws it is not. */
  function SaveMemory(selected: Option<SavedItinerary>, token: Option<string>, serverAnswered: bool,
                      memories: seq<Memory>, notes: string, photos: seq<Photo>, savedAt: string): (r: Result<seq<Memory>, string>)
    ensures selected.None? ==> r == Failure("No itinerary to save")
    ensures selected.Some? && !Truthy(token) ==> r == Failure("You must be logged in to save memories")
    ensures selected.Some? && Truthy(token) && serverAnswered ==>
              r == Success(UpsertMemory(memories, MemoryFor(selected.value, notes, photos, savedAt)))
    ensures selected.Some? && Truthy(token) && !serverAnswered ==> r.Failure?
  {
    match selected
    case None => Failure("No itinerary to save")
    case Some(sel) =>
      if !Truthy(token) then Failure("You must be logged in to save memories")
      else if !serverAnswered then Failure("Failed to save memory")
      else Success(UpsertMemory(memories, MemoryFor(sel, notes, photos, savedAt)))
  }

  /** Deleting the fetched memory shown at `idx`. */
  function DeleteFetchedMemory<M>(fetched: seq<M>, idx: int): (r: seq<M>)
    ensures 0 <= idx < |fetched| ==> r == fetched[..idx] + fetched[idx + 1..]
    ensures !(0 <= idx < |fetched|) ==> r == fetched
  {
    RemoveAt(fetched, idx)
  }

  function NumberedStops(items: seq<ItineraryItem>, first: int): (r: seq<MapPlace>)
    ensures |r| == |items|
    ensures forall i :: 0 <= i < |r| ==> r[i] == StopPlace(items[i], Some(first + i))
  {
    if |items| == 0 then [] else [StopPlace(items[0], Some(first))] + NumberedStops(items[1..], first + 1)
  }

  /** What `{duration && (...)}` puts on the page: the labelled duration line, the
      falsy number itself (React prints 0 and NaN as text), or nothing. */
  datatype DurationShown = Line(text: string) | Bare(text: string) | Nothing

  /** The duration part of the selected itinerary's header. A truthy duration gives
      the line with its `formatDuration` text; a duration of 0 or NaN is printed
      bare; any other falsy value, or no selection, shows nothing. */
  function DurationLabel(selected: Option<SavedItinerary>): (r: DurationShown)
    ensures r.Line? <==> selected.Some? && MinutesTruthy(selected.value.duration)
    ensures r.Line? ==> r.text == FormatDuration(selected.value.duration)
    ensures r.Bare? <==> selected.Some? && (selected.value.duration == Minutes(0) || selected.value.duration.NaN?)
    ensures r.Bare? ==> r.text == if selected.value.duration.NaN? then "NaN" else "0"
  {
    match selected
    case None => Nothing
    case Some(sel) =>
      if MinutesTruthy(sel.duration) then Line(FormatDuration(sel.duration))
      else if sel.duration.Minutes? then Bare("0")
      else if sel.duration.NaN? then Bare("NaN")
      else Nothing
  }

  /** A shown duration line states the trip's length: a positive number of minutes
      reads back as itself, and any other truthy value (a negative number, a
      non-number) is shown as zero minutes. A zero-minute trip gets no line. */
  lemma DurationLabelReadsBack(selected: Option<SavedItinerary>)
    requires DurationLabel(selected).Line?
    ensures var d := selected.value.duration;
            ParseDuration(DurationLabel(selected).text) == Some(if d.Minutes? && d.n > 0 then d.n as nat else 0)
    ensures selected.value.duration != Minutes(0)
  {
    FormatDurationReadsBack(selected.value.duration);
  }

  /** The map places of the selected itinerary: one per stop, in order, at
      `[lon, lat]`, titled by the spot name, numbered from 1. */
  function MapPlaces(selected: Option<SavedItinerary>): (r: seq<MapPlace>)
    ensures selected.None? || selected.value.itinerary.None? ==> r == []
    ensures selected.Some? && selected.value.itinerary.Some? ==>
              var items := selected.value.itinerary.value;
              && |r| == |items|
              && forall i :: 0 <= i < |r| ==>
                   && r[i].title == items[i].spotname
                   && r[i].coordinates == Some([items[i].lon, items[i].lat])
                   && r[i].address == items[i].reason
                   && r[i].eventIndex == Some(i + 1)
  {
    if selected.Some? && selected.value.itinerary.Some? then NumberedStops(selected.value.itinerary.value, 1)
    else []
  }

  /** Every stop whose latitude and longitude are numbers gets a marker, in stop order. */
  lemma StopsAllMarked(selected: Option<SavedItinerary>)
    requires selected.Some? && selected.value.itinerary.Some?
    requires forall i :: 0 <= i < |selected.value.itinerary.value| ==>
               selected.value.itinerary.value[i].lat.Finite? && selected.value.itinerary.value[i].lon.Finite?
    ensures |TripMap.MarkersFor(MapPlaces(selected))| == |selected.value.itinerary.value|
    ensures forall i :: 0 <= i < |selected.value.itinerary.value| ==>
              TripMap.MarkersFor(MapPlaces(selected))[i] ==
                TripMap.Marker(selected.value.itinerary.value[i].lon, selected.value.itinerary.value[i].lat,
                               selected.value.itinerary.value[i].spotname, selected.value.itinerary.value[i].reason.GetOr(""))
  {
    var places := MapPlaces(selected);
    assert forall i :: 0 <= i < |places| ==> TripMap.Drawable(places[i]);
    TripMap.AllDrawableAllMarked(places);
  }
}

=== FILE: places.dfy ===
/** Records shared by the trip page, the trip planner, the events page, the
    memories page and the map: the place objects handed to the map, the
    itinerary stops the trip service returns, and the text-search exchange
    with the places service, which the trip page and the trip planner shape
    identically. */
module Places {
  import opened Wrappers
  import opened JsText

  /** A JavaScript number used as a coordinate. Its magnitude is opaque here:
      only whether it is NaN and whether it is zero (JavaScript-falsy) matter. */
  datatype Number = Finite(v: int) | NaN {
    predicate Truthy() {
      Finite? && v != 0
    }
  }

  /** An object the map component draws. `coordinates` is the raw JavaScript value
      (absent, or an array of any length, normally `[lon, lat]`); `address` may be
      `undefined`; the remaining fields are present only on some producers' objects. */
  datatype MapPlace = MapPlace(
    title: string,
    coordinates: Option<seq<Number>>,
    address: Option<string>,
    placeId: Option<string>,
    eventIndex: Option<int>,
    isStart: bool,
    isEvent: bool)

  /** One stop of the itinerary the trip service computes. */
  datatype ItineraryItem = ItineraryItem(
    spotname: string,
    reason: Option<string>,
    lat: Number,
    lon: Number,
    reachtime: Option<string>)

  /** The map object for an itinerary stop: `[lon, lat]`, titled by the spot name,
      with the service's reason as its address. */
  function StopPlace(it: ItineraryItem, eventIndex: Option<int>): (p: MapPlace)
    ensures p.coordinates == Some([it.lon, it.lat])
    ensures p.title == it.spotname && p.address == it.reason
    ensures p.eventIndex == eventIndex && !p.isStart && !p.isEvent && p.placeId.None?
  {
    MapPlace(it.spotname, Some([it.lon, it.lat]), it.reason, None, eventIndex, false, false)
  }

  /** One entry of the places service's `ResultItems`. */
  datatype ResultItem = ResultItem(
    title: string,
    placeId: string,
    addressLabel: Option<string>,
    position: Option<seq<Number>>)

  /** The decoded reply of the text-search endpoint; `ResultItems` may be absent. */
  datatype SearchReply = SearchReply(resultItems: Option<seq<ResultItem>>)

  /** The body POSTed to the text-search endpoint. */
  datatype SearchRequest = SearchRequest(queryText: string, biasPosition: seq<Number>, maxResults: nat)

  /** What a search does: whether a request was sent, and the results it shows. */
  datatype SearchOutcome = SearchOutcome(request: Option<SearchRequest>, results: seq<MapPlace>)

  /** Queries shorter than this (after trimming) are never sent. */
  const MinQueryLength: nat := 3

  /** The search precondition: a trimmed query at least three UTF-16 code units
      long (JavaScript's `length`) and a known reference position. */
  predicate ShouldSearch(text: string, bias: Option<seq<Number>>) {
    Utf16Length(Trim(text)) >= MinQueryLength && bias.Some?
  }

  /** A search candidate: title, place id, address label defaulting to "", position. */
  function Candidate(item: ResultItem): (p: MapPlace)
    ensures p.title == item.title && p.placeId == Some(item.placeId)
    ensures p.address == Some(OrDefault(item.addressLabel, ""))
    ensures p.coordinates == item.position
    ensures p.eventIndex.None? && !p.isStart && !p.isEvent
  {
    MapPlace(item.title, item.position, Some(OrDefault(item.addressLabel, "")), Some(item.placeId), None, false, false)
  }

  function CandidatesOf(items: seq<ResultItem>): (r: seq<MapPlace>)
    ensures |r| == |items|
    ensures forall i :: 0 <= i < |r| ==> r[i] == Candidate(items[i])
  {
    if |items| == 0 then [] else [Candidate(items[0])] + CandidatesOf(items[1..])
  }

  /** `data.ResultItems?.map(...) || []`: one candidate per result item, in order;
      none when `ResultItems` is absent. */
  function NormalizeResults(reply: SearchReply): (r: seq<MapPlace>)
    ensures reply.resultItems.None? ==> r == []
    ensures reply.resultItems.Some? ==> |r| == |reply.resultItems.value|
    ensures reply.resultItems.Some? ==> forall i :: 0 <= i < |r| ==>
              && r[i].title == reply.resultItems.value[i].title
              && r[i].placeId == Some(reply.resultItems.value[i].placeId)
              && r[i].address == Some(OrDefault(reply.resultItems.value[i].addressLabel, ""))
              && r[i].coordinates == reply.resultItems.value[i].position
  {
    match reply.resultItems
    case None => []
    case Some(items) => CandidatesOf(items)
  }

  /** A text search with reference position `bias`, asking for at most `maxResults`.
      `reply` is the decoded response, or None when the request or decoding threw.
      No request is sent unless the precondition holds; the query is sent untrimmed. */
  function SearchText(text: string, bias: Option<seq<Number>>, maxResults: nat, reply: Option<SearchReply>): (o: SearchOutcome)
    ensures o.request.Some? <==> ShouldSearch(text, bias)
    ensures o.request.Some? ==> o.request.value == SearchRequest(text, bias.value, maxResults)
    ensures o.request.None? ==> o.results == []
    ensures reply.None? ==> o.results == []
    ensures o.request.Some? && reply.Some? ==> o.results == NormalizeResults(reply.value)
  {
    if Utf16Length(Trim(text)) < MinQueryLength || bias.None? then SearchOutcome(None, [])
    else
      var request := SearchRequest(text, bias.value, maxResults);
      match reply
      case None => SearchOutcome(Some(request), [])
      case Some(data) => SearchOutcome(Some(request), NormalizeResults(data))
  }

  /** Padding with white space never changes whether a query is searched. */
  lemma {:induction false} ShouldSearchIgnoresPadding(pad: string, text: string, bias: Option<seq<Number>>)
    requires forall i :: 0 <= i < |pad| ==> IsWhitespace(pad[i])
    ensures ShouldSearch(pad + text, bias) == ShouldSearch(text, bias)
  {
    TrimIgnoresLeading(pad, text);
  }

  /** A letter and one emoji are two characters but three code units, so they are searched. */
  lemma AstralQuerySearched(bias: seq<Number>)
    ensures |Trim("a\U{1F600}")| == 2
    ensures ShouldSearch("a\U{1F600}", Some(bias))
  {
    var q := "a\U{1F600}";
    assert !IsWhitespace(q[0]) && !IsWhitespace(q[1]);
    assert LeadLength(q) == 0;
    assert TrimEnd(q) == q;
    assert Utf16Length(q) == 1 + Utf16Length(q[1..]);
    assert Utf16Length(q[1..]) == 2 + Utf16Length(q[2..]);
  }

  lemma {:induction false} TrimIgnoresLeading(pad: string, text: string)
    requires forall i :: 0 <= i < |pad| ==> IsWhitespace(pad[i])
    ensures Trim(pad + text) == Trim(text)
  {
    if |pad| > 0 {
      assert (pad + text)[1..] == pad[1..] + text;
      TrimIgnoresLeading(pad[1..], text);
      LeadLengthStep(pad + text);
    } else {
      assert pad + text == text;
    }
  }

  lemma LeadLengthStep(s: string)
    requires |s| > 0 && IsWhitespace(s[0])
    ensures Trim(s) == Trim(s[1..])
  {
  }
}

=== FILE: proxy.dfy ===
/** The development server's proxy rewrites: a request path under `/api` or
    `/places` is forwarded with that leading prefix removed, once, without any
    check that the prefix ends at a path-segment boundary. */
module Proxy {

  const ApiPrefix := "/api"
  const PlacesPrefix := "/places"

  /** `path.replace(/^prefix/, '')`: the prefix is removed when `path` starts with it. */
  function StripLeading(prefix: string, path: string): (r: string)
    ensures prefix <= path ==> path == prefix + r
    ensures !(prefix <= path) ==> r == path
  {
    if prefix <= path then path[|prefix|..] else path
  }

  /** The rewrite for requests proxied to the REST backend. */
  function RewriteApi(path: string): (r: string)
    ensures ApiPrefix <= path ==> path == ApiPrefix + r
    ensures !(ApiPrefix <= path) ==> r == path
  {
    StripLeading(ApiPrefix, path)
  }

  /** The rewrite for requests proxied to the places service. */
  function RewritePlaces(path: string): (r: string)
    ensures PlacesPrefix <= path ==> path == PlacesPrefix + r
    ensures !(PlacesPrefix <= path) ==> r == path
  {
    StripLeading(PlacesPrefix, path)
  }

  /** Prefixing and rewriting are inverse: the rewrite of `prefix + rest` is `rest`,
      and a rewritten path put back behind the prefix it lost is the original. */
  lemma StripLeadingRoundTrip(prefix: string, rest: string, path: string)
    ensures StripLeading(prefix, prefix + rest) == rest
    ensures prefix <= path ==> prefix + StripLeading(prefix, path) == path
  {
  }

  /** Only the leading occurrence goes: "/api/api/x" becomes "/api/x", so rewriting
      a second time gives a different path; the rewrite is not idempotent. */
  lemma RewriteApiOnce()
    ensures RewriteApi("/api/api/x") == "/api/x"
    ensures RewriteApi(RewriteApi("/api/api/x")) == "/x"
  {
  }

  /** There is no segment-boundary check: "/apix" becomes "x", and "/placesfoo" becomes "foo". */
  lemma NoSegmentBoundary()
    ensures RewriteApi("/apix") == "x"
    ensures RewritePlaces("/placesfoo") == "foo"
  {
  }
}

=== FILE: seqs.dfy ===
/** Generic sequence operations that the components use through JavaScript's
    `Array.prototype` methods: `filter`, `filter` by position, `slice(0, n)`
    and `findIndex`. */
module Seqs {

  /** `s.filter(keep)`: the elements satisfying `keep`, in their original order. */
  function Filter<T>(s: seq<T>, keep: T -> bool): (r: seq<T>)
    ensures |r| <= |s|
    ensures forall i :: 0 <= i < |r| ==> r[i] in s && keep(r[i])
    ensures forall i :: 0 <= i < |s| && keep(s[i]) ==> s[i] in r
  {
    if |s| == 0 then []
    else (if keep(s[0]) then [s[0]] else []) + Filter(s[1..], keep)
  }

  /** Filtering distributes over concatenation; together with the one-element
      case this pins `Filter` down as "keep in order, drop the rest". */
  lemma {:induction false} FilterConcat<T>(a: seq<T>, b: seq<T>, keep: T -> bool)
    ensures Filter(a + b, keep) == Filter(a, keep) + Filter(b, keep)
  {
    if |a| == 0 {
      assert a + b == b;
    } else {
      assert (a + b)[1..] == a[1..] + b;
      FilterConcat(a[1..], b, keep);
    }
  }

  /** Filtering a single element keeps it exactly when it satisfies `keep`. */
  lemma FilterSingleton<T>(x: T, keep: T -> bool)
    ensures Filter([x], keep) == if keep(x) then [x] else []
  {
  }

  /** A filter that rejects nothing is the identity. */
  lemma {:induction false} FilterKeepsAll<T>(s: seq<T>, keep: T -> bool)
    requires forall i :: 0 <= i < |s| ==> keep(s[i])
    ensures Filter(s, keep) == s
  {
    if |s| > 0 {
      FilterKeepsAll(s[1..], keep);
    }
  }

  /** Filtering twice by the same predicate changes nothing the second time. */
  lemma FilterIdempotent<T>(s: seq<T>, keep: T -> bool)
    ensures Filter(Filter(s, keep), keep) == Filter(s, keep)
  {
    var r := Filter(s, keep);
    FilterKeepsAll(r, keep);
  }

  /** The elements of `s` (which sit at positions `from`, `from + 1`, ... of the
      original array) except the one at position `idx`. */
  function KeepOtherPositions<T>(s: seq<T>, idx: int, from: int): (r: seq<T>)
    ensures from <= idx < from + |s| ==> r == s[..idx - from] + s[idx - from + 1..]
    ensures !(from <= idx < from + |s|) ==> r == s
  {
    if |s| == 0 then []
    else
      (if from == idx then [] else [s[0]]) + KeepOtherPositions(s[1..], idx, from + 1)
  }

  /** `s.filter((_, i) => i !== idx)`: delete position `idx`; any other `idx`
      (negative or past the end) leaves `s` unchanged. */
  function RemoveAt<T>(s: seq<T>, idx: int): (r: seq<T>)
    ensures 0 <= idx < |s| ==> |r| == |s| - 1
    ensures 0 <= idx < |s| ==> forall i :: 0 <= i < idx ==> r[i] == s[i]
    ensures 0 <= idx < |s| ==> forall i :: idx <= i < |r| ==> r[i] == s[i + 1]
    ensures !(0 <= idx < |s|) ==> r == s
  {
    KeepOtherPositions(s, idx, 0)
  }

  /** Appending and then removing the appended position restores the list. */
  lemma RemoveAtAppended<T>(s: seq<T>, x: T)
    ensures RemoveAt(s + [x], |s|) == s
  {
  }

  function Min(a: int, b: int): int {
    if a <= b then a else b
  }

  /** `s.slice(0, n)`: at most the first `n` elements. */
  function Take<T>(s: seq<T>, n: nat): (r: seq<T>)
    ensures |r| == Min(n, |s|)
    ensures forall i :: 0 <= i < |r| ==> r[i] == s[i]
  {
    if n <= |s| then s[..n] else s
  }

  /** `s.findIndex(p)`: the first position whose element satisfies `p`, or -1. */
  function FirstIndex<T>(s: seq<T>, p: T -> bool): (r: int)
    ensures -1 <= r < |s|
    ensures r >= 0 ==> p(s[r])
    ensures r >= 0 ==> forall j :: 0 <= j < r ==> !p(s[j])
    ensures r == -1 <==> forall j :: 0 <= j < |s| ==> !p(s[j])
  {
    if |s| == 0 then -1
    else if p(s[0]) then 0
    else
      var k := FirstIndex(s[1..], p);
      if k < 0 then -1 else k + 1
  }
}

=== FILE: tripmap.dfy ===
/** The selection rules of the map component, abstracted from the map library:
    on every change of the place list it removes all markers, adds one marker
    per drawable place and flies to the last place; separately it decides
    whether a route line is drawn and through which coordinates. */
module TripMap {
  import opened Wrappers
  import opened Places

  /** A marker and the popup it carries (title, and the address or ""). */
  datatype Marker = Marker(lon: Number, lat: Number, title: string, popupAddress: string)

  /** What one update does to the map, in order. */
  datatype Effect = RemoveMarker(marker: Marker) | AddMarker(marker: Marker) | FlyTo(lon: Number, lat: Number)

  /** A place gets a marker when it has exactly two coordinates, neither NaN. */
  predicate Drawable(p: MapPlace) {
    p.coordinates.Some? && |p.coordinates.value| == 2
    && !p.coordinates.value[0].NaN? && !p.coordinates.value[1].NaN?
  }

  function MarkerOf(p: MapPlace): Marker
    requires Drawable(p)
  {
    Marker(p.coordinates.value[0], p.coordinates.value[1], p.title, p.address.GetOr(""))
  }

  /** The markers that should stand for `places`, in place order. */
  function MarkersFor(places: seq<MapPlace>): (r: seq<Marker>)
    ensures |r| <= |places|
  {
    if |places| == 0 then []
    else (if Drawable(places[0]) then [MarkerOf(places[0])] else []) + MarkersFor(places[1..])
  }

  /** The number of drawable places. */
  function CountDrawable(places: seq<MapPlace>): nat {
    if |places| == 0 then 0 else (if Drawable(places[0]) then 1 else 0) + CountDrawable(places[1..])
  }

  /** The effects of visiting `places[i..]`: a marker for each drawable place, and a
      flight to the place at the very end of the list when it is drawable. */
  function VisitFrom(places: seq<MapPlace>, i: nat): seq<Effect>
    requires i <= |places|
    decreases |places| - i
  {
    if i == |places| then []
    else
      var p := places[i];
      var here := if !Drawable(p) then []
                  else [AddMarker(MarkerOf(p))]
                       + (if i == |places| - 1 then [FlyTo(p.coordinates.value[0], p.coordinates.value[1])] else []);
      here + VisitFrom(places, i + 1)
  }

  function Removals(previous: seq<Marker>): (r: seq<Effect>)
    ensures |r| == |previous|
    ensures forall k :: 0 <= k < |r| ==> r[k] == RemoveMarker(previous[k])
  {
    if |previous| == 0 then [] else [RemoveMarker(previous[0])] + Removals(previous[1..])
  }

  /** The markers an effect list adds, in order. */
  function Added(effects: seq<Effect>): seq<Marker> {
    if |effects| == 0 then []
    else (if effects[0].AddMarker? then [effects[0].marker] else []) + Added(effects[1..])
  }

  /** The flights an effect list makes, as positions. */
  function Flights(effects: seq<Effect>): seq<(Number, Number)> {
    if |effects| == 0 then []
    else (if effects[0].FlyTo? then [(effects[0].lon, effects[0].lat)] else []) + Flights(effects[1..])
  }

  /** The result of one marker update: the effects and the markers now kept. */
  datatype MarkerUpdate = MarkerUpdate(effects: seq<Effect>, markers: seq<Marker>)

  /** The marker effect of the map component. Before the map exists nothing happens. */
  function UpdateMarkers(mapReady: bool, previous: seq<Marker>, places: seq<MapPlace>): (u: MarkerUpdate)
    ensures !mapReady ==> u == MarkerUpdate([], previous)
    ensures mapReady ==> u.markers == MarkersFor(places)
    ensures mapReady ==> |u.effects| >= |previous| && u.effects[..|previous|] == Removals(previous)
  {
    if !mapReady then MarkerUpdate([], previous)
    else MarkerUpdate(Removals(previous) + VisitFrom(places, 0), MarkersFor(places))
  }

  lemma {:induction false} AddedConcat(a: seq<Effect>, b: seq<Effect>)
    ensures Added(a + b) == Added(a) + Added(b)
  {
    if |a| > 0 {
      assert (a + b)[1..] == a[1..] + b;
      AddedConcat(a[1..], b);
    } else {
      assert a + b == b;
    }
  }

  lemma {:induction false} FlightsConcat(a: seq<Effect>, b: seq<Effect>)
    ensures Flights(a + b) == Flights(a) + Flights(b)
  {
    if |a| > 0 {
      assert (a + b)[1..] == a[1..] + b;
      FlightsConcat(a[1..], b);
    } else {
      assert a + b == b;
    }
  }

  lemma {:induction false} MarkersForSuffix(places: seq<MapPlace>, i: nat)
    requires i < |places|
    ensures MarkersFor(places[i..]) ==
            (if Drawable(places[i]) then [MarkerOf(places[i])] else []) + MarkersFor(places[i + 1..])
  {
  }

  /** Visiting the places adds exactly their markers, in order. */
  lemma {:induction false} VisitAddsMarkers(places: seq<MapPlace>, i: nat)
    requires i <= |places|
    ensures Added(VisitFrom(places, i)) == MarkersFor(places[i..])
    decreases |places| - i
  {
    if i < |places| {
      var p := places[i];
      var rest := VisitFrom(places, i + 1);
      VisitAddsMarkers(places, i + 1);
      MarkersForSuffix(places, i);
      if Drawable(p) {
        var fly := if i == |places| - 1 then [FlyTo(p.coordinates.value[0], p.coordinates.value[1])] else [];
        assert VisitFrom(places, i) == [AddMarker(MarkerOf(p))] + fly + rest;
        AddedConcat([AddMarker(MarkerOf(p))] + fly, rest);
        AddedConcat([AddMarker(MarkerOf(p))], fly);
        assert Added(fly) == [];
        assert Added([AddMarker(MarkerOf(p))]) == [MarkerOf(p)];
      } else {
        assert VisitFrom(places, i) == rest;
      }
    } else {
      assert places[i..] == [];
    }
  }

  /** Visiting the places flies at most once: to the last place, exactly when it is drawable. */
  lemma {:induction false} VisitFlights(places: seq<MapPlace>, i: nat)
    requires i <= |places|
    ensures Flights(VisitFrom(places, i)) ==
            if i < |places| && Drawable(places[|places| - 1])
            then [(places[|places| - 1].coordinates.value[0], places[|places| - 1].coordinates.value[1])]
            else []
    decreases |places| - i
  {
    if i < |places| {
      var p := places[i];
      var rest := VisitFrom(places, i + 1);
      VisitFlights(places, i + 1);
      if Drawable(p) {
        var fly := if i == |places| - 1 then [FlyTo(p.coordinates.value[0], p.coordinates.value[1])] else [];
        assert VisitFrom(places, i) == [AddMarker(MarkerOf(p))] + fly + rest;
        FlightsConcat([AddMarker(MarkerOf(p))] + fly, rest);
        FlightsConcat([AddMarker(MarkerOf(p))], fly);
        assert Flights([AddMarker(MarkerOf(p))]) == [];
      } else {
        assert VisitFrom(places, i) == rest;
      }
    }
  }

  lemma {:induction false} RemovalsAddNothing(previous: seq<Marker>)
    ensures Added(Removals(previous)) == [] && Flights(Removals(previous)) == []
  {
    if |previous| > 0 {
      assert Removals(previous)[1..] == Removals(previous[1..]);
      RemovalsAddNothing(previous[1..]);
    }
  }

  lemma {:induction false} VisitRemovesNothing(places: seq<MapPlace>, i: nat)
    requires i <= |places|
    ensures forall k :: 0 <= k < |VisitFrom(places, i)| ==> !VisitFrom(places, i)[k].RemoveMarker?
    decreases |places| - i
  {
    if i < |places| {
      VisitRemovesNothing(places, i + 1);
    }
  }

  /** One update of a ready map: every previous marker is removed before anything is
      added and nothing is removed afterwards; the markers added are exactly those
      of the drawable places, in order; the camera flies at most once, to the last
      place, and only when that place is drawable. */
  lemma MarkerUpdateEffects(previous: seq<Marker>, places: seq<MapPlace>)
    ensures var u := UpdateMarkers(true, previous, places);
            && (forall k :: 0 <= k < |previous| ==> u.effects[k] == RemoveMarker(previous[k]))
            && (forall k :: |previous| <= k < |u.effects| ==> !u.effects[k].RemoveMarker?)
            && Added(u.effects) == u.markers
            && Flights(u.effects) ==
               if |places| > 0 && Drawable(places[|places| - 1])
               then [(places[|places| - 1].coordinates.value[0], places[|places| - 1].coordinates.value[1])]
               else []
  {
    var u := UpdateMarkers(true, previous, places);
    var visit := VisitFrom(places, 0);
    assert u.effects == Removals(previous) + visit;
    VisitRemovesNothing(places, 0);
    AddedConcat(Removals(previous), visit);
    FlightsConcat(Removals(previous), visit);
    RemovalsAddNothing(previous);
    VisitAddsMarkers(places, 0);
    VisitFlights(places, 0);
    assert places[0..] == places;
  }

  /** As many markers as drawable places, each at its place's coordinates. */
  lemma {:induction false} MarkerCount(places: seq<MapPlace>)
    ensures |MarkersFor(places)| == CountDrawable(places)
    ensures forall m :: m in MarkersFor(places) ==>
              exists i :: 0 <= i < |places| && Drawable(places[i]) && m == MarkerOf(places[i])
  {
    if |places| > 0 {
      MarkerCount(places[1..]);
      forall m | m in MarkersFor(places)
        ensures exists i :: 0 <= i < |places| && Drawable(places[i]) && m == MarkerOf(places[i])
      {
        if Drawable(places[0]) && m == MarkerOf(places[0]) {
          assert Drawable(places[0]) && m == MarkerOf(places[0]);
        } else {
          var j :| 0 <= j < |places[1..]| && Drawable(places[1..][j]) && m == MarkerOf(places[1..][j]);
          assert places[j + 1] == places[1..][j];
        }
      }
    }
  }

  /** When every place is drawable, every place gets a marker. */
  lemma {:induction false} AllDrawableAllMarked(places: seq<MapPlace>)
    requires forall i :: 0 <= i < |places| ==> Drawable(places[i])
    ensures MarkersFor(places) == seq(|places|, i requires 0 <= i < |places| => MarkerOf(places[i]))
  {
    if |places| > 0 {
      AllDrawableAllMarked(places[1..]);
    }
  }

  /** A place feeds the route when its coordinates are an array of length two. */
  predicate IsPair(p: MapPlace) {
    p.coordinates.Some? && |p.coordinates.value| == 2
  }

  /** The coordinates the route goes through, in place order. */
  function RouteCoords(places: seq<MapPlace>): (r: seq<seq<Number>>)
    ensures |r| <= |places|
    ensures forall k :: 0 <= k < |r| ==> |r[k]| == 2
  {
    if |places| == 0 then []
    else (if IsPair(places[0]) then [places[0].coordinates.value] else []) + RouteCoords(places[1..])
  }

  datatype RoutePlan = NoRoute | DrawRoute(coords: seq<seq<Number>>)

  /** The route effect: nothing before the map exists or with fewer than two places;
      otherwise a line through the length-two coordinates, provided at least two
      of them remain. */
  function PlanRoute(mapReady: bool, places: seq<MapPlace>): (r: RoutePlan)
    ensures r.DrawRoute? <==> mapReady && |places| >= 2 && |RouteCoords(places)| >= 2
    ensures r.DrawRoute? ==> r.coords == RouteCoords(places)
  {
    if !mapReady || |places| < 2 then NoRoute
    else
      var coords := RouteCoords(places);
      if |coords| < 2 then NoRoute else DrawRoute(coords)
  }

  /** Every drawable place also feeds the route, so there are never more markers
      than route coordinates. */
  lemma {:induction false} MarkersWithinRoute(places: seq<MapPlace>)
    ensures |MarkersFor(places)| <= |RouteCoords(places)|
  {
    if |places| > 0 {
      MarkersWithinRoute(places[1..]);
    }
  }

  /** The route has no NaN check: a place with a NaN coordinate feeds the route
      but gets no marker. */
  lemma NaNPlaceRoutedButUnmarked(title: string)
    ensures var p := MapPlace(title, Some([NaN, Finite(1)]), None, None, None, false, false);
            var q := MapPlace(title, Some([Finite(1), Finite(1)]), None, None, None, false, false);
            && MarkersFor([p, q]) == [MarkerOf(q)]
            && PlanRoute(true, [p, q]) == DrawRoute([[NaN, Finite(1)], [Finite(1), Finite(1)]])
  {
    var p := MapPlace(title, Some([NaN, Finite(1)]), None, None, None, false, false);
    var q := MapPlace(title, Some([Finite(1), Finite(1)]), None, None, None, false, false);
    assert [p, q][1..] == [q];
    assert [q][1..] == [];
    assert !Drawable(p) && Drawable(q) && IsPair(p) && IsPair(q);
    assert MarkersFor([q]) == [MarkerOf(q)] + MarkersFor([]);
    assert MarkersFor([p, q]) == MarkersFor([q]);
    assert RouteCoords([q]) == [q.coordinates.value] + RouteCoords([]);
    assert RouteCoords([p, q]) == [p.coordinates.value] + RouteCoords([q]);
  }
}

=== FILE: trippage.dfy ===
/** The pure logic of the trip page: the shared text search, the stop list,
    local validation and shaping of the trip-initialisation request, and the
    list of places handed to the map. */
module TripPage {
  import opened Wrappers
  import opened Seqs
  import opened Places
  import TripMap

  /** The trip page asks the places service for at most six candidates. */
  const MaxSearchResults: nat := 6

  /** `searchText`, run for the start and for the stop query alike. */
  function Search(text: string, userLoc: Option<seq<Number>>, reply: Option<SearchReply>): (o: SearchOutcome)
    ensures !ShouldSearch(text, userLoc) ==> o == SearchOutcome(None, [])
    ensures ShouldSearch(text, userLoc) ==> o.request == Some(SearchRequest(text, userLoc.value, MaxSearchResults))
    ensures ShouldSearch(text, userLoc) && reply.Some? ==> o.results == NormalizeResults(reply.value)
    ensures reply.None? ==> o.results == []
  {
    SearchText(text, userLoc, MaxSearchResults, reply)
  }

  /** The part of the page state the stop picker changes. */
  datatype StopPicker = StopPicker(places: seq<MapPlace>, stopQuery: string, stopSuggestions: seq<MapPlace>)

  /** `addStop`: the place goes to the end; the query and the suggestions are cleared. */
  function AddStop(s: StopPicker, place: MapPlace): (r: StopPicker)
    ensures |r.places| == |s.places| + 1
    ensures r.places[..|s.places|] == s.places && r.places[|s.places|] == place
    ensures r.stopQuery == "" && r.stopSuggestions == []
  {
    StopPicker(s.places + [place], "", [])
  }

  /** `removeStop`: position `idx` goes, the others keep their relative order;
      an index outside the list changes nothing. Query and suggestions are untouched. */
  function RemoveStop(s: StopPicker, idx: int): (r: StopPicker)
    ensures 0 <= idx < |s.places| ==> r.places == s.places[..idx] + s.places[idx + 1..]
    ensures !(0 <= idx < |s.places|) ==> r == s
    ensures r.stopQuery == s.stopQuery && r.stopSuggestions == s.stopSuggestions
  {
    s.(places := RemoveAt(s.places, idx))
  }

  /** Removing the stop just added gives back the stop list from before. */
  lemma AddThenRemoveStop(s: StopPicker, place: MapPlace)
    ensures RemoveStop(AddStop(s, place), |s.places|).places == s.places
  {
    RemoveAtAppended(s.places, place);
  }

  /** One entry of the request's `stops`: `[title, placeId]`. */
  datatype StopRef = StopRef(title: string, placeId: Option<string>)

  /** The body POSTed to the trip-initialisation endpoint. `startLocationCoords`
      is present only when the page has start coordinates. */
  datatype TripRequest = TripRequest(
    startLocation: string,
    startLocationCoords: Option<seq<Number>>,
    startTime: string,
    endTime: string,
    mode: string,
    stops: seq<StopRef>)

  const ValidationMessage := "Add a start location and at least one stop."

  function StopRefs(places: seq<MapPlace>): (r: seq<StopRef>)
    ensures |r| == |places|
    ensures forall i :: 0 <= i < |r| ==> r[i].title == places[i].title && r[i].placeId == places[i].placeId
  {
    if |places| == 0 then [] else [StopRef(places[0].title, places[0].placeId)] + StopRefs(places[1..])
  }

  /** The request's stop list follows the picker: adding a stop appends its
      reference, removing a stop removes the reference at the same position. */
  lemma StopRefsFollowEdits(places: seq<MapPlace>, place: MapPlace, idx: int)
    ensures StopRefs(places + [place]) == StopRefs(places) + [StopRef(place.title, place.placeId)]
    ensures StopRefs(RemoveAt(places, idx)) == RemoveAt(StopRefs(places), idx)
  {
    var added := StopRefs(places + [place]);
    assert forall i :: 0 <= i < |places| ==> (places + [place])[i] == places[i];
    assert added == StopRefs(places) + [StopRef(place.title, place.placeId)];
    if 0 <= idx < |places| {
      var removed := StopRefs(RemoveAt(places, idx));
      var refs := RemoveAt(StopRefs(places), idx);
      assert |removed| == |refs|;
      forall i | 0 <= i < |removed|
        ensures removed[i] == refs[i]
      {
        if i >= idx {
          assert RemoveAt(places, idx)[i] == places[i + 1];
        }
      }
    }
  }

  /** Once a start location is given, the request sent after adding a stop carries
      exactly the picker's stops in order, the new one last. */
  lemma AddedStopIsRequested(s: StopPicker, place: MapPlace, startLocation: string, startCoords: Option<seq<Number>>,
                             startTime: string, endTime: string, mode: string)
    requires startLocation != ""
    ensures var r := InitializeTrip(startLocation, startCoords, AddStop(s, place).places, startTime, endTime, mode);
            r.Success? && r.value.stops == StopRefs(s.places) + [StopRef(place.title, place.placeId)]
  {
    StopRefsFollowEdits(s.places, place, 0);
  }

  /** `initializeTrip` up to the request it sends. The ISO start and end times are
      computed from the clock and the date inputs and are taken as given. Without a
      start location or without stops the trip is refused and nothing is sent. */
  function InitializeTrip(startLocation: string, startCoords: Option<seq<Number>>, places: seq<MapPlace>,
                          startTime: string, endTime: string, mode: string): (r: Result<TripRequest, string>)
    ensures r.Failure? <==> startLocation == "" || |places| == 0
    ensures r.Failure? ==> r.error == ValidationMessage
    ensures r.Success? ==> r.value.startLocation == startLocation && r.value.mode == mode
    ensures r.Success? ==> r.value.startLocationCoords == startCoords
    ensures r.Success? ==> r.value.startTime == startTime && r.value.endTime == endTime
    ensures r.Success? ==> |r.value.stops| == |places|
    ensures r.Success? ==> forall i :: 0 <= i < |places| ==>
              r.value.stops[i] == StopRef(places[i].title, places[i].placeId)
  {
    if startLocation == "" || |places| == 0 then Failure(ValidationMessage)
    else Success(TripRequest(startLocation, startCoords, startTime, endTime, mode, StopRefs(places)))
  }

  /** The part of the trip service's reply the page uses. */
  datatype TripReply = TripReply(tripId: string, itinerary: Option<seq<ItineraryItem>>)

  /** The map entry for the start location. */
  function StartPlace(startLocation: string, coords: seq<Number>): (p: MapPlace)
    ensures p.title == startLocation && p.coordinates == Some(coords)
    ensures p.address == Some("Start") && p.isStart
  {
    MapPlace(startLocation, Some(coords), Some("Start"), None, None, true, false)
  }

  function ItineraryPlaces(items: seq<ItineraryItem>): (r: seq<MapPlace>)
    ensures |r| == |items|
    ensures forall i :: 0 <= i < |r| ==> r[i] == StopPlace(items[i], None)
  {
    if |items| == 0 then [] else [StopPlace(items[0], None)] + ItineraryPlaces(items[1..])
  }

  /** The places handed to the map. Once the service has returned an itinerary:
      the start entry, when start coordinates are known, then one entry per
      itinerary stop at `[lon, lat]`. Before that: the chosen stops themselves. */
  function MapPlaces(reply: Option<TripReply>, startLocation: string, startCoords: Option<seq<Number>>,
                     places: seq<MapPlace>): (r: seq<MapPlace>)
    ensures reply.None? || reply.value.itinerary.None? ==> r == places
    ensures reply.Some? && reply.value.itinerary.Some? ==>
              var items := reply.value.itinerary.value;
              var offset := if startCoords.Some? then 1 else 0;
              && |r| == |items| + offset
              && (startCoords.Some? ==> r[0] == StartPlace(startLocation, startCoords.value))
              && (forall i :: 0 <= i < |r| ==> (r[i].isStart <==> startCoords.Some? && i == 0))
              && (forall i :: 0 <= i < |items| ==>
                    && r[offset + i].title == items[i].spotname
                    && r[offset + i].coordinates == Some([items[i].lon, items[i].lat])
                    && r[offset + i].address == items[i].reason)
  {
    if reply.Some? && reply.value.itinerary.Some? then
      (match startCoords
       case Some(c) => [StartPlace(startLocation, c)]
       case None => [])
      + ItineraryPlaces(reply.value.itinerary.value)
    else places
  }

  /** With an itinerary and drawable start coordinates, the map's first marker is
      the start, labelled "Start" in its popup. */
  lemma StartMarkerFirst(reply: TripReply, startLocation: string, c: seq<Number>, places: seq<MapPlace>)
    requires reply.itinerary.Some?
    requires |c| == 2 && c[0].Finite? && c[1].Finite?
    ensures var markers := TripMap.MarkersFor(MapPlaces(Some(reply), startLocation, Some(c), places));
            |markers| > 0 && markers[0] == TripMap.Marker(c[0], c[1], startLocation, "Start")
  {
    var r := MapPlaces(Some(reply), startLocation, Some(c), places);
    assert r[0] == StartPlace(startLocation, c);
    assert TripMap.Drawable(r[0]);
  }
}

=== FILE: tripplanner.dfy ===
/** The pure logic of the trip planner panel: place suggestions, the nearby
    recommendations, and what selecting a suggestion hands to the parent. */
module TripPlanner {
  import opened Wrappers
  import opened JsText
  import opened Places

  /** The planner asks the places service for at most five suggestions. */
  const MaxSuggestions: nat := 5

  /** The recommendations query and its size. */
  const RecommendationQuery := "tourist attractions"
  const MaxRecommendations: nat := 6

  /** `fetchSuggestions` */
  function FetchSuggestions(text: string, userLocation: Option<seq<Number>>, reply: Option<SearchReply>): (o: SearchOutcome)
    ensures !ShouldSearch(text, userLocation) ==> o == SearchOutcome(None, [])
    ensures ShouldSearch(text, userLocation) ==> o.request == Some(SearchRequest(text, userLocation.value, MaxSuggestions))
    ensures ShouldSearch(text, userLocation) && reply.Some? ==> o.results == NormalizeResults(reply.value)
    ensures reply.None? ==> o.results == []
  {
    SearchText(text, userLocation, MaxSuggestions, reply)
  }

  /** A nearby attraction: no coordinates are kept. */
  datatype Recommendation = Recommendation(title: string, address: string, placeId: string)

  function RecommendationsOf(items: seq<ResultItem>): (r: seq<Recommendation>)
    ensures |r| == |items|
    ensures forall i :: 0 <= i < |r| ==>
              r[i] == Recommendation(items[i].title, OrDefault(items[i].addressLabel, ""), items[i].placeId)
  {
    if |items| == 0 then []
    else [Recommendation(items[0].title, OrDefault(items[0].addressLabel, ""), items[0].placeId)]
         + RecommendationsOf(items[1..])
  }

  /** The recommendations after the one fetch made once the location is known:
      one per result item, none when `ResultItems` is absent; a failed request
      (`reply` None) leaves the current list as it was, and so does an unknown location. */
  function Recommendations(current: seq<Recommendation>, userLocation: Option<seq<Number>>,
                           reply: Option<SearchReply>): (r: seq<Recommendation>)
    ensures userLocation.None? || reply.None? ==> r == current
    ensures userLocation.Some? && reply.Some? && reply.value.resultItems.None? ==> r == []
    ensures userLocation.Some? && reply.Some? && reply.value.resultItems.Some? ==>
              |r| == |reply.value.resultItems.value|
    ensures userLocation.Some? && reply.Some? && reply.value.resultItems.Some? ==>
              forall i :: 0 <= i < |r| ==>
                && r[i].title == reply.value.resultItems.value[i].title
                && r[i].placeId == reply.value.resultItems.value[i].placeId
                && r[i].address == OrDefault(reply.value.resultItems.value[i].addressLabel, "")
  {
    if userLocation.None? then current
    else match reply
      case None => current
      case Some(data) =>
        match data.resultItems
        case None => []
        case Some(items) => RecommendationsOf(items)
  }

  /** A recommendation is the search candidate of the same result item with its
      position dropped: one per candidate, same title, address and place id. */
  lemma RecommendationsAreCandidates(current: seq<Recommendation>, loc: seq<Number>, reply: SearchReply)
    ensures var r := Recommendations(current, Some(loc), Some(reply));
            var c := NormalizeResults(reply);
            && |r| == |c|
            && forall i :: 0 <= i < |r| ==>
                 r[i].title == c[i].title && Some(r[i].address) == c[i].address
                 && Some(r[i].placeId) == c[i].placeId
  {
  }

  /** The request the recommendations fetch sends, once the location is known. */
  function RecommendationRequest(userLocation: Option<seq<Number>>): (q: Option<SearchRequest>)
    ensures q.Some? <==> userLocation.Some?
    ensures q.Some? ==> q.value.queryText == RecommendationQuery && q.value.maxResults == MaxRecommendations
    ensures q.Some? ==> q.value.biasPosition == userLocation.value
  {
    match userLocation
    case None => None
    case Some(loc) => Some(SearchRequest(RecommendationQuery, loc, MaxRecommendations))
  }

  /** The planner's own state. */
  datatype Planner = Planner(query: string, suggestions: seq<MapPlace>)

  /** `handleSelect`: the query and suggestions are cleared and the parent receives a
      place holding exactly the title, coordinates, address and place id. */
  function HandleSelect(s: Planner, chosen: MapPlace): (r: (Planner, MapPlace))
    ensures r.0 == Planner("", [])
    ensures r.1.title == chosen.title && r.1.coordinates == chosen.coordinates
    ensures r.1.address == chosen.address && r.1.placeId == chosen.placeId
    ensures r.1.eventIndex.None? && !r.1.isStart && !r.1.isEvent
  {
    (Planner("", []), MapPlace(chosen.title, chosen.coordinates, chosen.address, chosen.placeId, None, false, false))
  }

  /** A suggestion passed on by `handleSelect` is unchanged, since suggestions carry
      exactly the forwarded fields. */
  lemma SelectedSuggestionUnchanged(s: Planner, reply: SearchReply, i: nat)
    requires i < |NormalizeResults(reply)|
    ensures HandleSelect(s, NormalizeResults(reply)[i]).1 == NormalizeResults(reply)[i]
  {
  }
}

=== FILE: wrappers.dfy ===
/** Optional values and outcomes used throughout the model.
    An `Option` is a JavaScript value that might be `null` or `undefined`;
    a `Result` is an action the page either performs or turns down with a
    message shown to the user. */
module Wrappers {

  datatype Option<+T> = None | Some(value: T) {

    /** The present value, or `default` when there is none. */
    function GetOr(default: T): T {
      if Some? then value else default
    }
  }

  datatype Result<+R, +E> = Success(value: R) | Failure(error: E)
}
